=== FILE: README.md ===
# Meeting-room booking engine, modelled in Dafny

This project models the core of a meeting-room booking service. The core is the set of rules that decide whether a reservation may exist, and how a booking moves through its lifecycle. It consists of:

- the time-range validator of request bodies;
- the availability engine;
- booking creation (direct or as a request), approval, moving, listing, deletion and decline;
- the room directory (search, creation, deletion);
- the `require_role` gate, login and role assignment;
- the `handle_db_exceptions` translation of exceptions into HTTP errors.

The database is one immutable value `Db`. Its rooms, users and bookings are sequences in table order, and its roles are a set. Every service call is a pure function. A call returns an `Outcome`:

- `Returned` with a value, or
- `Raised` with an exception: an HTTP error, a database error or any other error.

A write returns `Written(value, db')`. A failure carries no database, so every write is atomic. `Lifecycle` composes the routes into a state machine. Its lemma `RunKeepsValid` proves that every database reachable from a valid one by any sequence of requests satisfies `Valid`:

- room numbers, user ids, usernames and booking ids are unique;
- every booking names a stored room and user and starts before it ends;
- every role a room or user holds is stored;
- every room has a description, since that column is NOT NULL;
- no two accepted bookings of the same room overlap.

Instants are integers counting **seconds**. The clock is a parameter `now`. Seconds are used rather than minutes so that one rule can be stated at all: the 15-minute validator looks only at the minute field, so the seconds within a minute are unconstrained (`Times.QuarterHourIgnoresSeconds`). Overlap is the half-open test `start < end' && end > start'`.

Three booking services fail as written, and each fails in every call that passes its checks (see Findings): creation, moving a booking, and the pending-request list. Each is modelled twice: once as written, and once corrected as the code evidently intends. The booking routes (`BookingController.CreateBooking`, `CreateBookingRequest`, `UpdateABooking`, `GetAllBookingRequests`) are composed with the corrected services. `BookingController.CreateAsWritten`, `UpdateABookingAsWritten` and `GetAllBookingRequestsAsWritten` are the same routes over the code as written. `Lifecycle` takes the choice as a parameter `Services`, and `RunKeepsValid` holds for both. Over the code as written, the creation and move routes never write anything (`Lifecycle.AsWrittenBookingRoutesWriteNothing`), so only approval, deletion and the room routes change bookings.

The code and its design description disagree in three places. Apart from the corrected services above, the model follows the code.

- The description gives the availability check an optional booking id to exclude. The repository's `room_is_available` takes no such argument. The update path passes one anyway, so it fails (see Findings).
- The description gives a booking a creation timestamp. The `Booking` table has no such column, and the two places that use it fail (see Findings). `Booking.datetimeMade` is kept in the datatype because the rest of the code relies on it.
- The description calls room capacity a positive integer. Nothing in the code checks this, and the model does not either.

The code also disagrees with itself once. The room body makes the description optional (app/schemas/room.py:13), but the `description` column is a non-optional `Mapped[str]` (app/db/models.py:27), so it is NOT NULL. It has no default either. The ORM leaves a `None` description out of the insert, the commit fails, and the wrapper answers 500 "Database error occurred". The model follows the code: `RoomRepository.CreateRoomInDb` fails for a room without a description. An absent `request_only` is also left out of the insert, but its column defaults to false.

## Model

| member | source | states |
|---|---|---|
| Outcomes.HandleDbExceptions | app/services/exception_wrapper.py:9-28 | a returned value and an HTTP exception pass unchanged; a database error becomes 500 "Database error occurred"; any other exception becomes 500 "An unexpected error occurred"; what comes out is always client-visible |
| Outcomes.HandleDbExceptionsFixedPoints | app/services/exception_wrapper.py:14-26 | the translation leaves an outcome alone exactly when it is already client-visible, so translating twice equals translating once |
| Models.RoleStrings | app/db/models.py:61-63 | the role-name list has the same length and order as the role list, entry by entry (used for both `role_names` and `allowed_role_names`) |
| Models.NewBooking | app/db/models.py:65-73 | a booking built without an explicit `accepted` is accepted; owner, room and times are the ones given |
| Models.DeleteRoomCascade | app/db/models.py:30-33 | deleting a room removes that room and exactly the bookings of that room; users and roles are untouched |
| Models.DeleteUserCascade | app/db/models.py:52-55 | deleting a user removes that user and exactly that user's bookings; rooms and roles are untouched |
| Models.DeleteRoomCascadeKeepsValid | app/db/models.py:30-33 | the room cascade keeps every database invariant |
| Models.DeleteUserCascadeKeepsValid | app/db/models.py:52-55 | the user cascade keeps every database invariant, since no booking is left pointing at the deleted user |
| Times.MinuteOfHour | app/schemas/times.py:15 | the minute field of an instant lies in 0..59 |
| Times.ValidateQuarterHour | app/schemas/times.py:11-17 | an endpoint is accepted unchanged exactly when its minute is 0, 15, 30 or 45; otherwise "Time must be in 15-minute intervals" |
| Times.ValidateTimes | app/schemas/times.py:11-28 | accepted, with both values unchanged, iff both endpoints are on the quarter hour and now < start < end; the first failing check picks the error (quantization, then future start, then ordering, equality included) |
| Times.ValidateBookingCreate | app/schemas/booking.py:6-7 | a booking body is accepted iff its times are, keeping room and times, and is rejected with the error `Times` gives |
| Times.ValidateGetRooms | app/schemas/room.py:6-7 | a room search is accepted iff its window is, keeping capacity and window, and is rejected with the error `Times` gives |
| Times.QuarterHourIgnoresSeconds | app/schemas/times.py:15 | changing the seconds within a minute never changes whether an instant is on the quarter hour |
| RoomRepository.GetRoom | app/repositories/room_repository.py:13-14 | finds a stored room with that number, and finds nothing iff no room has it |
| RoomRepository.GetRoomFindsTheRoom | app/repositories/room_repository.py:13-14 | with unique room numbers the lookup returns the very room stored under the number |
| RoomRepository.CreateRoomInDb | app/repositories/room_repository.py:16-20 | a room with a description is added at the end of the table and no other table changes; a room without one fails the NOT NULL description column with a database error and writes nothing |
| RoomRepository.DeleteRoomInDb | app/repositories/room_repository.py:22-25 | the room row and, by cascade, exactly its bookings are gone; users and roles are untouched |
| RoomRepository.GetRoomsCapacity | app/repositories/room_repository.py:27-28 | exactly the rooms seating at least the minimum, each as often as stored |
| RoomRepository.GetAllRooms | app/repositories/room_repository.py:10-11 | every stored room, entry by entry in table order |
| RoomRepository.CapacitySearchCanListAll | app/repositories/room_repository.py:10-28 | a capacity search whose minimum every room meets returns the full room list |
| RoomRepository.GetRoomsWithAvailabilityCheck | app/repositories/room_repository.py:30-34 | exactly the rooms seating at least the minimum |
| RoomRepository.AvailabilityCheckIgnoresTimes | app/repositories/room_repository.py:30-34 | the "availability check" room query returns the same rooms whatever window it is given |
| RoomRepository.GetConflictingRoomNumbers | app/repositories/room_repository.py:36-50 | a room number is in the set iff some accepted booking of that room overlaps the window |
| RoomRepository.RoomIsAvailable | app/repositories/room_repository.py:52-65 | true iff no accepted booking of the room overlaps the half-open window |
| RoomRepository.ConflictingAgreesWithAvailable | app/repositories/room_repository.py:36-65 | a room is missing from the conflicting set exactly when the single-room check calls it available |
| RoomRepository.AvailabilityIgnoresHarmless | app/repositories/room_repository.py:58-61 | adding a pending booking, a booking of another room, or a back-to-back booking never changes availability |
| RoomRepository.OverlapMakesUnavailable | app/repositories/room_repository.py:55-65 | an accepted booking of the room overlapping the window makes it unavailable |
| RoomRepository.RoomIsAvailableExcluding | app/services/booking_service.py:78-83 | the check the update evidently intends: available iff no accepted booking of the room other than the given id overlaps |
| RoomRepository.ExcludingAbsentIdIsPlainCheck | app/services/booking_service.py:78-83 | excluding an id no booking carries gives the plain availability check |
| BookingRepository.GetAllYourBookings | app/repositories/booking_repository.py:14-15 | exactly the bookings whose owner is the user, each as often as stored |
| BookingRepository.GetYourBooking | app/repositories/booking_repository.py:17-22 | returns a stored booking only when both its id and its owner match, and nothing iff no booking matches both |
| BookingRepository.GetAnyBooking | app/repositories/booking_repository.py:30-31 | returns a stored booking with that id whoever owns it, and nothing iff no booking has the id |
| BookingRepository.LookupsFindTheRow | app/repositories/booking_repository.py:17-31 | with unique ids the global lookup finds the stored booking, and the owner-scoped one finds it exactly for its owner |
| BookingRepository.YourBookingIsScopedAnyBooking | app/repositories/booking_repository.py:17-31 | with unique ids the owner-scoped lookup is the global lookup restricted to the owner |
| BookingRepository.ReplaceRowIsUpdateAt | app/repositories/booking_repository.py:24-28 | with unique ids, committing a changed booking rewrites exactly its own row |
| BookingRepository.UpdateBooking | app/repositories/booking_repository.py:24-28 | only start and end change; id, owner, room, accepted flag and timestamp are kept, and only that row is rewritten |
| BookingRepository.AcceptBooking | app/repositories/booking_repository.py:33-39 | the booking becomes accepted and its timestamp becomes now; nothing else about it or any other row changes. The timestamp is the corrected schema's `datetime_made` column: as written, the attribute is not mapped and the assignment is never stored |
| BookingRepository.NextId | app/db/models.py:68 | the id the table assigns next is positive and larger than every stored id |
| BookingRepository.CreateBookingInDb | app/repositories/booking_repository.py:41-45 | the booking is appended with a fresh id and every other row is kept; a missing user or room is a database error and writes nothing |
| BookingRepository.GetAllRequests | app/repositories/booking_repository.py:47-54 | exactly the pending bookings, each as often as stored, sorted by start time |
| BookingRepository.DeleteBooking | app/repositories/booking_repository.py:56-63 | exactly the rows with that id are gone, nothing else changes, and the receipt reports the id |
| RoleRepository.GetRole | app/repositories/role_repository.py:14-15 | finds the role iff a role of that name is stored |
| RoleRepository.ResolveRoles | app/services/user_service.py:91-99 | succeeds iff every name is a stored role, yielding the roles in the order named; otherwise reports the first unknown name |
| RoleRepository.UpdateRoles | app/repositories/role_repository.py:17-20 | the user's role list is replaced wholesale; every other user row and every other table is unchanged |
| UserService.GetUserByUsername | app/repositories/user_repository.py:14-15 | finds a stored user with that username, and nothing iff none has it |
| UserService.GetUserFindsTheUser | app/repositories/user_repository.py:14-15 | with unique usernames the lookup returns the very user stored under the name |
| UserService.AuthenticateUser | app/services/user_service.py:66-73 | never raises; nothing for an unknown username; a user only when it is stored under that name and the password verifies |
| UserService.AuthenticateStoredUser | app/services/user_service.py:67-73 | for a stored user, login yields that user exactly when the password verifies and nothing otherwise |
| UserService.PutRoles | app/services/user_service.py:83-101 | unknown user is 404 "User not found"; otherwise the first unknown role name is 404; success iff user and all roles exist. On success the stored user is returned with only the role list replaced, the role names exactly as given, and rooms, roles and bookings unchanged |
| UserService.PutRolesChangesOneUser | app/services/user_service.py:101 | role assignment rewrites only the row of the named user |
| UserService.PutRolesKeepsValid | app/services/user_service.py:83-101 | role assignment keeps every database invariant |
| Dependencies.CurrentUser | app/api/dependencies.py:9-20 | resolves a token's username to the stored user; an unknown name is 401 "Invalid user" |
| Dependencies.RequireRole | app/api/dependencies.py:27-36 | passes, returning the same user, iff every required role name is among the user's; otherwise 403 "Insufficient permissions" |
| Dependencies.RequireRoleSeesSets | app/api/dependencies.py:29 | order and repetition in either list do not matter, and an empty requirement always passes |
| Dependencies.AdminGate | app/api/dependencies.py:27-36 | the admin gate lets through exactly the holders of role "admin" |
| RoomService.RoomToDict | app/services/room_service.py:22-32 | the view copies number, capacity, description and request-only flag, shows the allowed role names, and carries the given flag |
| RoomService.AnyHeld | app/services/room_service.py:44 | true iff some listed role name is among the held ones |
| RoomService.CheckUserHasRoomPermissions | app/services/room_service.py:34-44 | true iff the room lists no roles or the user holds at least one of them |
| RoomService.SplitByConflict | app/services/room_service.py:60-70 | one pass over the candidates yields the views of the rooms with no conflicting booking, flagged available, followed by the views of the rest, flagged unavailable, each part in candidate order |
| RoomService.GetAvailableRoomsTime | app/services/room_service.py:46-70 | the rooms seating enough people: the ones with no conflicting booking flagged available, then the others flagged unavailable, each part in table order |
| RoomService.ConcatViewsOrder | app/services/room_service.py:60-70 | no unavailable entry precedes an available one |
| RoomService.ListingProperties | app/services/room_service.py:47-70 | one entry per room seating enough people, every entry from such a room, available ones first, and the flag true iff the single-room availability check holds |
| RoomService.GetAllRooms | app/services/room_service.py:116-119 | never fails; one view per stored room in table order, each the room's own view (number, capacity, description, request-only flag and role names copied) flagged available whatever its bookings |
| RoomService.CreateRoom | app/services/room_service.py:72-99 | a taken number is 400 and is checked first; then the first unknown role name is 404; then a room without a description is 500 "Database error occurred" from the commit; success iff none of these, storing the named roles in order, an absent request-only flag as false, and nothing else |
| RoomService.DeleteRoom | app/services/room_service.py:101-114 | an unknown number is 404; otherwise the room and exactly its bookings are gone and the receipt names it |
| RoomService.CreateRoomKeepsValid | app/services/room_service.py:72-99 | room creation keeps every database invariant |
| RoomService.DeleteRoomKeepsValid | app/services/room_service.py:101-114 | room deletion keeps every database invariant |
| BookingService.RoleGateIsRoomPermissionCheck | app/services/booking_service.py:38-44 | the role check of booking creation is the permission check the room directory shows |
| BookingService.CheckBookable | app/services/booking_service.py:27-54 | 400 for a missing room; 400 request-only on a direct booking; then 403 without an allowed role; a taken slot always fails; it passes iff all four checks do, yielding the stored room with that number |
| BookingService.BookingLogic | app/services/booking_service.py:23-66 | the corrected creation. The checks run in order and the first failing one decides: 400 "Room does not exist", 400 "Room is request only" on a direct booking, 403 "Insufficient permissions" without an allowed role, 400 "Room is unavailable" for a taken slot (requests included). On success the caller owns a new booking with those times, accepted iff direct, appended with a fresh id |
| BookingService.BookingLogicAsWritten | app/services/booking_service.py:56-66 | as written, every call that passes the checks answers 500 and never writes; a call failing a check fails as the corrected one does |
| BookingService.GetAllYourBookings | app/services/booking_service.py:68-70 | never raises; the caller's bookings as the repository lists them |
| BookingService.GetYourBooking | app/services/booking_service.py:72-74 | never raises; the owner-scoped lookup |
| BookingService.GetAnyBooking | app/services/booking_service.py:90-92 | never raises; the unscoped lookup |
| BookingService.UpdateBookingAsWritten | app/services/booking_service.py:76-88 | as written, moving a booking always answers 500 and writes nothing |
| BookingService.UpdateBooking | app/services/booking_service.py:76-88 | moving succeeds iff no other accepted booking of the room overlaps the new times (the booking itself is ignored), otherwise 400; success changes only the times |
| BookingService.JoinRequesters | app/services/booking_service.py:97-109 | succeeds iff every booking's user is stored, giving one entry per booking, in order, with that user's name |
| BookingService.GetAllRequests | app/services/booking_service.py:94-109 | when references resolve, the pending bookings with their requesters' names, earliest start first |
| BookingService.GetAllRequestsAsWritten | app/services/booking_service.py:94-109 | as written, the list succeeds (empty) only when nothing is pending; otherwise 500 |
| BookingService.AcceptBooking | app/services/booking_service.py:111-122 | approval succeeds iff no accepted booking of the room overlaps, the booking itself included; otherwise 400 |
| BookingService.ReapprovingFails | app/services/booking_service.py:111-122 | approving an already accepted booking always fails, since it overlaps itself |
| BookingService.DeleteBooking | app/services/booking_service.py:124-125 | deletion removes exactly the rows with the booking's id, keeps every other row, reports that id in its receipt message, and leaves rooms, users and roles unchanged |
| BookingService.AvailableIsCompatible | app/services/booking_service.py:46-54 | an accepted booking that passed the availability check clashes with no stored booking |
| BookingService.BookingLogicKeepsValid | app/services/booking_service.py:46-66 | creation keeps every invariant, in particular no overlap of accepted bookings per room |
| BookingService.ReplaceKeepsValid | app/repositories/booking_repository.py:24-39 | rewriting one row, keeping its id, owner and room, with times clashing with no other row, keeps every invariant |
| BookingService.AcceptBookingKeepsValid | app/services/booking_service.py:111-122 | approval keeps every invariant |
| BookingService.UpdateBookingKeepsValid | app/services/booking_service.py:76-88 | the corrected move keeps every invariant |
| BookingService.DeleteBookingKeepsValid | app/services/booking_service.py:124-125 | deletion keeps every invariant |
| BookingService.CreationFailsAsWritten | app/services/booking_service.py:57-64 | a concrete booking that the corrected code stores and the code as written answers with 500 |
| BookingService.UpdateFailsAsWritten | app/services/booking_service.py:78-83 | a concrete move that the corrected code performs and the code as written answers with 500 |
| BookingService.ListingFailsAsWritten | app/services/booking_service.py:105 | a concrete single pending request that the corrected listing shows and the code as written answers with 500 |
| BookingController.Create | app/api/booking_controller.py:15-56 | a body failing validation is 422 with the validator's message before any lookup; a valid one goes to the creation logic |
| BookingController.CreateBooking | app/api/booking_controller.py:15-33 | the direct route over the corrected creation: it creates with the request flag off, so what it stores is accepted and lies in the future |
| BookingController.CreateBookingRequest | app/api/booking_controller.py:36-56 | the request route over the corrected creation: it creates with the request flag on, so what it stores is pending |
| BookingController.GetBookings | app/api/booking_controller.py:59-68 | never fails and lists exactly the caller's bookings |
| BookingController.DeleteABooking | app/api/booking_controller.py:71-91 | succeeds iff the caller owns a booking with that id, removing exactly that id; otherwise 404 and nothing is written |
| BookingController.GetAllBookingRequests | app/api/booking_controller.py:94-102 | non-admins get 403; admins get the corrected pending list |
| BookingController.ApproveBookingRequest | app/api/booking_controller.py:105-125 | non-admins get 403; an unknown id is 404; a found booking whose slot is taken is 400 "Booking cannot be made as there are conflicting bookings"; success approves the booking with that id whoever owns it, with a receipt naming id and room |
| BookingController.UpdateABooking | app/api/booking_controller.py:128-141 | invalid times are 422 first; a booking the caller does not own is 404 "Booking {id} not found for update"; a found booking gets exactly the corrected move's answer: 400 on a conflict with another accepted booking, otherwise the move (the route over the corrected service) |
| BookingController.DeclineBookingRequest | app/api/booking_controller.py:144-159 | non-admins get 403; otherwise success iff some booking has the id, accepted or not, and exactly that id is removed; else 404 |
| BookingController.CreateAsWritten | app/api/booking_controller.py:15-56 | both creation routes over the code as written never succeed: a body failing validation and a failing check answer as the corrected route does, and a call the corrected route would store answers 500 |
| BookingController.UpdateABookingAsWritten | app/api/booking_controller.py:128-141 | the move route over the code as written never succeeds: 422 and the scoped 404 come first as in the corrected route, and a found booking answers 500 whatever the times |
| BookingController.GetAllBookingRequestsAsWritten | app/api/booking_controller.py:94-102 | the pending list over the code as written: non-admins get 403; admins get an empty list iff nothing is pending, and 500 otherwise |
| BookingController.CreatedBookingIsListed | app/api/booking_controller.py:15-68 | a created booking appears in its creator's listing next to everything listed before |
| BookingController.ForeignDeleteIsNotFound | app/api/booking_controller.py:79-87 | deleting someone else's booking is 404 |
| BookingController.DeclineTwiceIsNotFound | app/api/booking_controller.py:144-159 | declining the same id again is 404 |
| BookingController.ApprovalIgnoresTimeAndState | app/api/booking_controller.py:105-125 | an admin approves any booking whose slot is free, at any time and whatever its state |
| RoomController.CreateRoom | app/api/room_controller.py:61-71 | non-admins get 403 before any check; admins get room creation |
| RoomController.DeleteRoom | app/api/room_controller.py:74-88 | non-admins get 403 before any check; admins get room deletion |
| Lifecycle.CreateKeepsValid | app/api/booking_controller.py:15-56 | both creation routes keep every invariant |
| Lifecycle.UpdateKeepsValid | app/api/booking_controller.py:128-141 | the move route keeps every invariant |
| Lifecycle.ApproveKeepsValid | app/api/booking_controller.py:105-125 | the approve route keeps every invariant |
| Lifecycle.DeleteRoutesKeepValid | app/api/booking_controller.py:71-91 | the delete and decline routes keep every invariant |
| Lifecycle.RouteStepKeepsValid | app/api/booking_controller.py:15-159 | every route called by an authenticated user keeps every invariant, with either service code |
| Lifecycle.StepKeepsValid | app/api/dependencies.py:9-36 | every request, authenticated or not, keeps every invariant, with either service code |
| Lifecycle.RunKeepsValid | app/services/booking_service.py:46-66 | every sequence of requests from a valid database ends in a valid one, over the corrected services and over the code as written: accepted bookings of a room never overlap |
| Lifecycle.AsWrittenBookingRoutesWriteNothing | app/services/booking_service.py:57-88 | over the service code as written, a creation, request or move leaves the database exactly as it was |
| Scenarios.DirectBookingsDoNotOverlap | app/services/booking_service.py:46-54 | a direct booking holds its slot: an overlapping booking is 400 "Room is unavailable", a back-to-back one succeeds |
| Scenarios.RequestOnlyRoomFlow | app/services/booking_service.py:33-36 | a request-only room refuses a direct booking, takes two overlapping requests, approves one, and then refuses to approve the other |
| Scenarios.RestrictedRoom | app/services/booking_service.py:38-44 | a manager-only room is 403 for an employee and bookable by a manager |
| Scenarios.MoveOntoAnotherBooking | app/services/booking_service.py:78-87 | moving a booking onto another accepted booking of the room is 400 |
| Scenarios.MoveWithinOwnSlot | app/services/booking_service.py:78-83 | shrinking a booking within its own slot succeeds, since it does not conflict with itself |

## Left out

- Token handling, password hashing and cookies are left out. Password verification is the parameter `verifyPassword`. `Dependencies.CurrentUser` starts from the username a token carries, so the 403 "Invalid or expired token" of a bad token is not modelled.
- Concurrency is left out. The availability check and the insert are separate statements. The invariant is proved for requests applied one at a time, which is also what the storage layer would have to guarantee.
- Clock time zones, microseconds and the `datetime` arithmetic are left out. Instants are integer seconds and `now` is a parameter. `datetime_made` is stamped with that parameter.
- Storage failures other than the foreign-key violation on a booking insert and the NOT NULL description on a room insert are not modelled. A lost connection or a failed commit would give 500 through the wrapper. The `try`/`rollback` of `delete_booking`, with its own 500, is therefore unreachable in the model.
- The seed script is left out. It inserts bookings without any overlap check, so the invariant is about states the services reach.
- The superseded copies under app/crud and app/auth, the user routes that use them, and the health, role-listing and configuration modules are left out. They are not wired into the services modelled here.
- The room search and room list routes are left out. Their `sufficient_roles` flag is `RoomService.CheckUserHasRoomPermissions` applied to each view, and that function is modelled. The admin gate of room creation and deletion is modelled in `RoomController`.
- `create_user` and `get_all_users_from_db` are left out. They are plain inserts and reads through the user routes, which are not modelled.
- Role assignment (`put_roles`) has no route in the code, so `Lifecycle` applies it as a direct service call without an admin gate.
- `min_capacity`'s default of 0 is left to the HTTP layer. The search functions always take a capacity.
- A 422 answer carries only the validator's message. FastAPI's full error body (location, type) is not modelled. Pydantic's structural checks for missing or mistyped fields are also not modelled.
- The association tables use role names as keys. A role list naming the same role twice would violate their primary key on commit. The model stores the list as given.
- Bookings are listed in table order. The SQL queries without `ORDER BY` (`get_all_your_bookings`, `.first()`) have no guaranteed order, and the model fixes storage order.
- BookingService.GetAllRequests: the result is stated only when every booking's user is stored, which `Valid` guarantees. Otherwise the join fails with 500, and only the fact that a failure is a client-visible HTTP error is stated.

## Findings

| source | as written | input that shows it | evidently intended | confidence | as-written member | corrected member |
|---|---|---|---|---|---|---|
| app/services/booking_service.py:78-83 | `update_booking` calls `room_is_available` with four arguments (the fourth is the booking id), but the repository method takes three, so the call raises `TypeError` and the wrapper answers 500 | moving booking 1 of room "101" from 3600-7200 to 3600-9000 with no other bookings (`BookingService.UpdateFailsAsWritten`) | the availability check ignores the booking being moved, and the move succeeds when no other accepted booking overlaps | not executed | BookingService.UpdateBookingAsWritten | BookingService.UpdateBooking |
| app/services/booking_service.py:57-64 | the new row is built with `datetime_made=...`, but the `Booking` table declares no such column, so the constructor raises `TypeError` after every check has passed, and the answer is 500 | a direct booking of room "101" at 3600-7200 by its only user (`BookingService.CreationFailsAsWritten`) | the booking is stored with its creation time | not executed | BookingService.BookingLogicAsWritten | BookingService.BookingLogic |
| app/services/booking_service.py:105 | the pending list reads `booking.datetime_made`, an attribute the `Booking` model does not have, so the list answers 500 whenever something is pending | one pending booking of room "101" (`BookingService.ListingFailsAsWritten`) | each pending request is listed with its creation time | not executed | BookingService.GetAllRequestsAsWritten | BookingService.GetAllRequests |

=== FILE: booking_controller.dfy ===
/** The booking routes (app/api/booking_controller.py). Each route receives
    the already-authenticated caller and the current instant; request bodies
    are validated first (422), then the route runs its service calls in order. */
module BookingController {
  import opened Outcomes
  import opened Seqs
  import opened Models
  import opened Times
  import Text
  import Dependencies
  import RoomRepository
  import BookingRepository
  import BookingService

  const NotYoursToDelete := "Booking not found or you don't have permission to delete it"
  const BookingNotFound := "Booking not found"

  function NotFoundForUpdate(bookingId: int): string {
    "Booking " + Text.IntToString(bookingId) + " not found for update"
  }

  /** A request body that fails validation is answered 422 with the
      validator's message. */
  function Unprocessable<T>(e: TimesError): Outcome<T> {
    Fail(UnprocessableEntity, Message(e))
  }

  /** The two creation routes share everything but the request flag. */
  function Create(db: Db, roomNumber: string, start: Instant, end: Instant, isRequest: bool, caller: User, now: Instant)
    : (r: Outcome<Written<Booking>>)
    ensures ValidateBookingCreate(roomNumber, start, end, now).Err? ==>
              r == Unprocessable(ValidateBookingCreate(roomNumber, start, end, now).error)
    ensures ValidateBookingCreate(roomNumber, start, end, now).Ok? ==>
              r == BookingService.BookingLogic(db, BookingCreate(roomNumber, start, end), isRequest, caller, now)
  {
    match ValidateBookingCreate(roomNumber, start, end, now)
    case Err(e) => Unprocessable(e)
    case Ok(booking) => BookingService.BookingLogic(db, booking, isRequest, caller, now)
  }

  /** POST /bookings: a direct booking, accepted at once. */
  function CreateBooking(db: Db, roomNumber: string, start: Instant, end: Instant, caller: User, now: Instant)
    : (r: Outcome<Written<Booking>>)
    ensures r == Create(db, roomNumber, start, end, false, caller, now)
    ensures r.Returned? ==> r.value.value.accepted && now < start < end
  {
    Create(db, roomNumber, start, end, false, caller, now)
  }

  /** POST /bookings/request: a booking request, stored pending. */
  function CreateBookingRequest(db: Db, roomNumber: string, start: Instant, end: Instant, caller: User, now: Instant)
    : (r: Outcome<Written<Booking>>)
    ensures r == Create(db, roomNumber, start, end, true, caller, now)
    ensures r.Returned? ==> !r.value.value.accepted && now < start < end
  {
    Create(db, roomNumber, start, end, true, caller, now)
  }

  /** GET /bookings: the caller's own bookings only. */
  function GetBookings(db: Db, caller: User): (r: Outcome<seq<Booking>>)
    ensures r.Returned?
    ensures forall b :: b in r.value <==> b in db.bookings && b.userId == caller.id
  {
    BookingService.GetAllYourBookings(db, caller.id)
  }

  /** DELETE /bookings/{id}: only the owner's booking is found; anyone
      else's, or a missing one, is a 404 and nothing is deleted. */
  function DeleteABooking(db: Db, bookingId: int, caller: User): (r: Outcome<Written<BookingRepository.DeleteReceipt>>)
    ensures r.Returned? <==> exists b :: b in db.bookings && b.id == bookingId && b.userId == caller.id
    ensures r.Raised? ==> r == Fail(NotFound, NotYoursToDelete)
    ensures r.Returned? ==> forall b :: b in r.value.db.bookings <==> b in db.bookings && b.id != bookingId
  {
    var found := BookingService.GetYourBooking(db, caller.id, bookingId).value;
    match found
    case None => Fail(NotFound, NotYoursToDelete)
    case Some(booking) => Returned(BookingService.DeleteBooking(db, booking))
  }

  /** GET /bookings/request: the pending list, for admins only. */
  function GetAllBookingRequests(db: Db, caller: User): (r: Outcome<seq<BookingService.BookingRequestResponse>>)
    ensures !Dependencies.IsAdmin(caller) ==> r == Fail(Forbidden, Dependencies.InsufficientPermissions)
    ensures Dependencies.IsAdmin(caller) ==> r == BookingService.GetAllRequests(db)
  {
    Dependencies.AdminGate(caller);
    var _ :- Dependencies.RequireRole(Dependencies.Admin, caller);
    BookingService.GetAllRequests(db)
  }

  datatype ApproveReceipt = ApproveReceipt(id: int, message: string)

  /** PUT /bookings/{id}/approve: admins only; finds the booking whoever owns
      it and approves it if its slot is still free. Neither the pending state
      nor the start being in the future is checked. */
  function ApproveBookingRequest(db: Db, bookingId: int, caller: User, now: Instant): (r: Outcome<Written<ApproveReceipt>>)
    ensures !Dependencies.IsAdmin(caller) ==> r == Fail(Forbidden, Dependencies.InsufficientPermissions)
    ensures Dependencies.IsAdmin(caller) && (forall b :: b in db.bookings ==> b.id != bookingId) ==>
              r == Fail(NotFound, BookingNotFound)
    ensures r.Returned? ==>
      exists b :: b in db.bookings && b.id == bookingId
        && RoomRepository.RoomIsAvailable(db.bookings, b.roomNumber, b.startTime, b.endTime)
        && r.value.value == ApproveReceipt(bookingId, "Approved booking request for " + Text.IntToString(bookingId)
                                                      + " on room: " + b.roomNumber)
        && r.value.db == BookingRepository.AcceptBooking(db, b, now).db
    ensures Dependencies.IsAdmin(caller) && BookingRepository.GetAnyBooking(db.bookings, bookingId).Some? ==>
      var b := BookingRepository.GetAnyBooking(db.bookings, bookingId).value;
      !RoomRepository.RoomIsAvailable(db.bookings, b.roomNumber, b.startTime, b.endTime) ==>
        r == Fail(BadRequest, BookingService.AcceptConflict)
  {
    Dependencies.AdminGate(caller);
    var _ :- Dependencies.RequireRole(Dependencies.Admin, caller);
    var found := BookingService.GetAnyBooking(db, bookingId).value;
    match found
    case None => Fail(NotFound, BookingNotFound)
    case Some(booking) =>
      var approved :- BookingService.AcceptBooking(db, booking, now);
      var b := approved.value;
      Returned(Written(ApproveReceipt(b.id, "Approved booking request for " + Text.IntToString(b.id)
                                             + " on room: " + b.roomNumber), approved.db))
  }

  /** PUT /bookings/{id}: the new times are validated (422), then only the
      owner's booking is found (404), then it is moved (the corrected update). */
  function UpdateABooking(db: Db, bookingId: int, start: Instant, end: Instant, caller: User, now: Instant)
    : (r: Outcome<Written<Booking>>)
    ensures ValidateTimes(start, end, now).Err? ==> r == Unprocessable(ValidateTimes(start, end, now).error)
    ensures (ValidateTimes(start, end, now).Ok? && forall b :: b in db.bookings ==> !(b.id == bookingId && b.userId == caller.id))
              ==> r == Fail(NotFound, NotFoundForUpdate(bookingId))
    ensures r.Returned? ==>
      exists b :: b in db.bookings && b.id == bookingId && b.userId == caller.id
        && r == BookingService.UpdateBooking(db, b, TimeRange(start, end))
    ensures ValidateTimes(start, end, now).Ok? && BookingRepository.GetYourBooking(db.bookings, caller.id, bookingId).Some? ==>
      r == BookingService.UpdateBooking(db, BookingRepository.GetYourBooking(db.bookings, caller.id, bookingId).value,
                                        TimeRange(start, end))
  {
    match ValidateTimes(start, end, now)
    case Err(e) => Unprocessable(e)
    case Ok(times) =>
      var found := BookingService.GetYourBooking(db, caller.id, bookingId).value;
      match found
      case None => Fail(NotFound, NotFoundForUpdate(bookingId))
      case Some(booking) => BookingService.UpdateBooking(db, booking, times)
  }

  /** DELETE /bookings/{id}/decline: admins only; removes the booking whoever
      owns it and whether or not it was accepted. */
  function DeclineBookingRequest(db: Db, bookingId: int, caller: User): (r: Outcome<Written<BookingRepository.DeleteReceipt>>)
    ensures !Dependencies.IsAdmin(caller) ==> r == Fail(Forbidden, Dependencies.InsufficientPermissions)
    ensures Dependencies.IsAdmin(caller) ==>
              (r.Returned? <==> exists b :: b in db.bookings && b.id == bookingId)
    ensures Dependencies.IsAdmin(caller) && r.Raised? ==> r == Fail(NotFound, BookingNotFound)
    ensures r.Returned? ==> forall b :: b in r.value.db.bookings <==> b in db.bookings && b.id != bookingId
  {
    Dependencies.AdminGate(caller);
    var _ :- Dependencies.RequireRole(Dependencies.Admin, caller);
    var found := BookingService.GetAnyBooking(db, bookingId).value;
    match found
    case None => Fail(NotFound, BookingNotFound)
    case Some(booking) => Returned(BookingService.DeleteBooking(db, booking))
  }

  // ----- the routes over the service code as written -----------------------

  /** The creation routes over creation as written: a body failing
      validation and a failing check answer as the corrected routes do; a
      call the corrected route would store answers 500 instead. No call
      writes anything. */
  function CreateAsWritten(db: Db, roomNumber: string, start: Instant, end: Instant, isRequest: bool,
                           caller: User, now: Instant): (r: Outcome<Written<Booking>>)
    ensures r.Raised?
    ensures ValidateBookingCreate(roomNumber, start, end, now).Err? ==>
              r == Create(db, roomNumber, start, end, isRequest, caller, now)
    ensures BookingService.CheckBookable(db, BookingCreate(roomNumber, start, end), isRequest, caller).Raised? ==>
              r == Create(db, roomNumber, start, end, isRequest, caller, now)
    ensures Create(db, roomNumber, start, end, isRequest, caller, now).Returned? ==>
              r == Fail(InternalServerError, UnexpectedErrorDetail)
  {
    match ValidateBookingCreate(roomNumber, start, end, now)
    case Err(e) => Unprocessable(e)
    case Ok(booking) => BookingService.BookingLogicAsWritten(db, booking, isRequest, caller, now)
  }

  /** PUT /bookings/{id} over the move as written: 422 and the scoped 404
      come first as in the corrected route; once the caller's booking is
      found the answer is 500, whatever the times. No call writes anything. */
  function UpdateABookingAsWritten(db: Db, bookingId: int, start: Instant, end: Instant, caller: User, now: Instant)
    : (r: Outcome<Written<Booking>>)
    ensures r.Raised?
    ensures ValidateTimes(start, end, now).Err? ==> r == UpdateABooking(db, bookingId, start, end, caller, now)
    ensures (ValidateTimes(start, end, now).Ok? && forall b :: b in db.bookings ==> !(b.id == bookingId && b.userId == caller.id))
              ==> r == UpdateABooking(db, bookingId, start, end, caller, now)
    ensures (ValidateTimes(start, end, now).Ok? && exists b :: b in db.bookings && b.id == bookingId && b.userId == caller.id)
              ==> r == Fail(InternalServerError, UnexpectedErrorDetail)
  {
    match ValidateTimes(start, end, now)
    case Err(e) => Unprocessable(e)
    case Ok(times) =>
      var found := BookingService.GetYourBooking(db, caller.id, bookingId).value;
      match found
      case None => Fail(NotFound, NotFoundForUpdate(bookingId))
      case Some(booking) => BookingService.UpdateBookingAsWritten(db, booking, times)
  }

  /** GET /bookings/request over the listing as written: admins get an empty
      list while nothing is pending and 500 otherwise. */
  function GetAllBookingRequestsAsWritten(db: Db, caller: User): (r: Outcome<seq<BookingService.BookingRequestResponse>>)
    ensures !Dependencies.IsAdmin(caller) ==> r == Fail(Forbidden, Dependencies.InsufficientPermissions)
    ensures Dependencies.IsAdmin(caller) ==> (r.Returned? <==> forall b :: b in db.bookings ==> b.accepted)
    ensures r.Returned? ==> r.value == []
    ensures Dependencies.IsAdmin(caller) && r.Raised? ==> r == Fail(InternalServerError, UnexpectedErrorDetail)
  {
    Dependencies.AdminGate(caller);
    var _ :- Dependencies.RequireRole(Dependencies.Admin, caller);
    BookingService.GetAllRequestsAsWritten(db)
  }

  // ----- route-level properties --------------------------------------------

  /** A booking just created is listed for its creator, next to everything
      the creator had before. */
  lemma CreatedBookingIsListed(db: Db, roomNumber: string, start: Instant, end: Instant, isRequest: bool,
                               caller: User, now: Instant)
    requires Create(db, roomNumber, start, end, isRequest, caller, now).Returned?
    ensures var w := Create(db, roomNumber, start, end, isRequest, caller, now).value;
      && w.value in GetBookings(w.db, caller).value
      && forall b :: b in GetBookings(db, caller).value ==> b in GetBookings(w.db, caller).value
  {
  }

  /** A user cannot delete another user's booking: the lookup is scoped to
      the caller, so the answer is 404 and nothing is written. */
  lemma ForeignDeleteIsNotFound(db: Db, booking: Booking, caller: User)
    requires Pairwise(db.bookings, DistinctBookingIds)
    requires booking in db.bookings && booking.userId != caller.id
    ensures DeleteABooking(db, booking.id, caller) == Fail(NotFound, NotYoursToDelete)
  {
    BookingRepository.LookupsFindTheRow(db.bookings, booking, caller.id);
  }

  /** Declining removes every trace of the id, so declining again is a 404. */
  lemma DeclineTwiceIsNotFound(db: Db, bookingId: int, caller: User)
    requires DeclineBookingRequest(db, bookingId, caller).Returned?
    ensures DeclineBookingRequest(DeclineBookingRequest(db, bookingId, caller).value.db, bookingId, caller)
              == Fail(NotFound, BookingNotFound)
  {
  }

  /** Approval of a pending request whose slot is free succeeds at any
      instant, even after the booking's start: neither the pending state nor
      the time is checked. */
  lemma ApprovalIgnoresTimeAndState(db: Db, booking: Booking, caller: User, now: Instant)
    requires Pairwise(db.bookings, DistinctBookingIds)
    requires booking in db.bookings && Dependencies.IsAdmin(caller)
    requires RoomRepository.RoomIsAvailable(db.bookings, booking.roomNumber, booking.startTime, booking.endTime)
    ensures ApproveBookingRequest(db, booking.id, caller, now).Returned?
    ensures ApproveBookingRequest(db, booking.id, caller, now).value.db == BookingRepository.AcceptBooking(db, booking, now).db
  {
    BookingRepository.LookupsFindTheRow(db.bookings, booking, caller.id);
  }
}

=== FILE: booking_repository.dfy ===
/** Booking queries and writes (app/repositories/booking_repository.py). */
module BookingRepository {
  import opened Outcomes
  import opened Seqs
  import opened Models
  import Text

  function OwnedBy(userId: int): Booking -> bool {
    (b: Booking) => b.userId == userId
  }

  /** All bookings of one user, in table order. */
  function GetAllYourBookings(bookings: seq<Booking>, userId: int): (r: seq<Booking>)
    ensures forall b :: b in r <==> b in bookings && b.userId == userId
    ensures forall b :: multiset(r)[b] == if b.userId == userId then multiset(bookings)[b] else 0
  {
    Filter(bookings, OwnedBy(userId))
  }

  function IdAndOwner(userId: int, id: int): Booking -> bool {
    (b: Booking) => b.id == id && b.userId == userId
  }

  function HasId(id: int): Booking -> bool {
    (b: Booking) => b.id == id
  }

  /** The booking with this id, provided this user owns it. */
  function GetYourBooking(bookings: seq<Booking>, userId: int, id: int): (r: Option<Booking>)
    ensures r.Some? ==> r.value in bookings && r.value.id == id && r.value.userId == userId
    ensures r.None? <==> forall b :: b in bookings ==> !(b.id == id && b.userId == userId)
  {
    FirstWhere(bookings, IdAndOwner(userId, id))
  }

  /** The booking with this id, whoever owns it. */
  function GetAnyBooking(bookings: seq<Booking>, id: int): (r: Option<Booking>)
    ensures r.Some? ==> r.value in bookings && r.value.id == id
    ensures r.None? <==> forall b :: b in bookings ==> b.id != id
  {
    FirstWhere(bookings, HasId(id))
  }

  /** With unique ids both lookups find a stored booking by its id, and the
      owner-scoped one finds it only for its owner. */
  lemma LookupsFindTheRow(bookings: seq<Booking>, b: Booking, userId: int)
    requires Pairwise(bookings, DistinctBookingIds)
    requires b in bookings
    ensures GetAnyBooking(bookings, b.id) == Some(b)
    ensures GetYourBooking(bookings, userId, b.id) == if b.userId == userId then Some(b) else None
  {
    var i :| 0 <= i < |bookings| && bookings[i] == b;
    var any := GetAnyBooking(bookings, b.id);
    var j :| 0 <= j < |bookings| && bookings[j] == any.value;
    assert !DistinctBookingIds(bookings[i], bookings[j]);
    var yours := GetYourBooking(bookings, userId, b.id);
    if yours.Some? {
      var k :| 0 <= k < |bookings| && bookings[k] == yours.value;
      assert !DistinctBookingIds(bookings[i], bookings[k]);
    }
  }

  /** The owner-scoped lookup is the global lookup restricted to the owner. */
  lemma YourBookingIsScopedAnyBooking(bookings: seq<Booking>, userId: int, id: int)
    requires Pairwise(bookings, DistinctBookingIds)
    ensures GetYourBooking(bookings, userId, id) ==
              match GetAnyBooking(bookings, id)
              case Some(b) => if b.userId == userId then Some(b) else None
              case None => None
  {
    var any := GetAnyBooking(bookings, id);
    if any.Some? {
      LookupsFindTheRow(bookings, any.value, userId);
    }
  }

  /** The table with the row carrying `updated.id` replaced by `updated`. */
  function ReplaceRow(bookings: seq<Booking>, updated: Booking): (r: seq<Booking>)
    ensures |r| == |bookings|
    ensures forall i :: 0 <= i < |bookings| && bookings[i].id != updated.id ==> r[i] == bookings[i]
    ensures forall i :: 0 <= i < |bookings| && bookings[i].id == updated.id ==> r[i] == updated
  {
    seq(|bookings|, i requires 0 <= i < |bookings| => if bookings[i].id == updated.id then updated else bookings[i])
  }

  lemma ReplaceRowIsUpdateAt(bookings: seq<Booking>, k: nat, updated: Booking)
    requires Pairwise(bookings, DistinctBookingIds)
    requires k < |bookings| && bookings[k].id == updated.id
    ensures ReplaceRow(bookings, updated) == bookings[k := updated]
  {
    var r := ReplaceRow(bookings, updated);
    forall i | 0 <= i < |bookings| ensures r[i] == bookings[k := updated][i] {
      if i != k {
        assert DistinctBookingIds(bookings[i], bookings[k]);
      }
    }
  }

  /** Moves a booking: only its start and end change. */
  function UpdateBooking(db: Db, booking: Booking, desiredStart: Instant, desiredEnd: Instant): (r: Written<Booking>)
    ensures r.value.startTime == desiredStart && r.value.endTime == desiredEnd
    ensures r.value.id == booking.id && r.value.userId == booking.userId && r.value.roomNumber == booking.roomNumber
    ensures r.value.accepted == booking.accepted && r.value.datetimeMade == booking.datetimeMade
    ensures r.db == db.(bookings := ReplaceRow(db.bookings, r.value))
  {
    var moved := booking.(startTime := desiredStart, endTime := desiredEnd);
    Written(moved, db.(bookings := ReplaceRow(db.bookings, moved)))
  }

  /** Approves a booking and restamps `datetimeMade`; nothing else changes. */
  function AcceptBooking(db: Db, booking: Booking, now: Instant): (r: Written<Booking>)
    ensures r.value.accepted && r.value.datetimeMade == now
    ensures r.value.id == booking.id && r.value.userId == booking.userId && r.value.roomNumber == booking.roomNumber
    ensures r.value.startTime == booking.startTime && r.value.endTime == booking.endTime
    ensures r.db == db.(bookings := ReplaceRow(db.bookings, r.value))
  {
    var approved := booking.(accepted := true, datetimeMade := now);
    Written(approved, db.(bookings := ReplaceRow(db.bookings, approved)))
  }

  /** The id the database assigns to the next inserted row: one more than the
      largest id in the table, 1 for an empty table. */
  function NextId(bookings: seq<Booking>): (id: int)
    ensures id >= 1
    ensures forall b :: b in bookings ==> b.id < id
  {
    if |bookings| == 0 then 1
    else
      var rest := NextId(bookings[1..]);
      assert forall b :: b in bookings ==> b == bookings[0] || b in bookings[1..];
      if bookings[0].id + 1 > rest then bookings[0].id + 1 else rest
  }

  /** Inserts a booking. The database assigns its id; the commit fails with a
      foreign-key violation when its user or room does not exist. */
  function CreateBookingInDb(db: Db, booking: Booking): (r: Outcome<Written<Booking>>)
    ensures r.Returned? <==> HasUser(db.users, booking.userId) && HasRoom(db.rooms, booking.roomNumber)
    ensures r.Raised? ==> r.exception == DatabaseError
    ensures r.Returned? ==> r.value.value == booking.(id := r.value.value.id)
    ensures r.Returned? ==> forall b :: b in db.bookings ==> b.id != r.value.value.id
    ensures r.Returned? ==> r.value.db == db.(bookings := db.bookings + [r.value.value])
  {
    if HasUser(db.users, booking.userId) && HasRoom(db.rooms, booking.roomNumber) then
      var stored := booking.(id := NextId(db.bookings));
      Returned(Written(stored, db.(bookings := db.bookings + [stored])))
    else
      Raised(DatabaseError)
  }

  predicate IsPending(b: Booking) { !b.accepted }

  function StartOf(b: Booking): int { b.startTime }

  /** The pending bookings, ordered by start time. */
  function GetAllRequests(bookings: seq<Booking>): (r: seq<Booking>)
    ensures SortedBy(r, StartOf)
    ensures forall b :: b in r <==> b in bookings && !b.accepted
    ensures forall b :: multiset(r)[b] == if b.accepted then 0 else multiset(bookings)[b]
  {
    var pending := Filter(bookings, IsPending);
    var sorted := SortBy(pending, StartOf);
    assert forall b :: b in sorted <==> b in pending by {
      forall b ensures b in sorted <==> b in pending {
        assert b in sorted <==> b in multiset(sorted);
      }
    }
    sorted
  }

  datatype DeleteReceipt = DeleteReceipt(id: int, message: string)

  /** Removes exactly the row with this booking's id. */
  function DeleteBooking(db: Db, booking: Booking): (r: Written<DeleteReceipt>)
    ensures forall b :: b in r.db.bookings <==> b in db.bookings && b.id != booking.id
    ensures r.db.rooms == db.rooms && r.db.users == db.users && r.db.roles == db.roles
    ensures r.value.id == booking.id
    ensures r.value.message == "Successfully deleted booking with id " + Text.IntToString(booking.id)
  {
    Written(
      DeleteReceipt(booking.id, "Successfully deleted booking with id " + Text.IntToString(booking.id)),
      db.(bookings := Filter(db.bookings, BookingsOtherThan(booking.id))))
  }
}

=== FILE: booking_service.dfy ===
/** The booking lifecycle rules (app/services/booking_service.py): creation
    as a direct booking or as a request, approval, moving, listing and
    deletion, and the proof that each write keeps the database valid. */
module BookingService {
  import opened Outcomes
  import opened Seqs
  import opened Models
  import opened Times
  import RoomRepository
  import BookingRepository
  import RoomService
  import Text

  const RoomDoesNotExist := "Room does not exist"
  const RoomIsRequestOnly := "Room is request only"
  const InsufficientPermissions := "Insufficient permissions"
  const RoomIsUnavailable := "Room is unavailable"
  const UpdateConflict := "Booking cannot be updated as there are conflicting bookings"
  const AcceptConflict := "Booking cannot be made as there are conflicting bookings"

  /** The role gate of booking creation: a room listing allowed roles may only
      be booked by a user holding at least one of them. */
  predicate MayBookRoom(room: Room, user: User) {
    |AllowedRoleNames(room)| == 0 || exists role :: role in AllowedRoleNames(room) && role in RoleNames(user)
  }

  /** The role gate of booking creation is the permission check the room
      directory applies to a room's view. */
  lemma RoleGateIsRoomPermissionCheck(room: Room, user: User, available: bool)
    ensures MayBookRoom(room, user) == RoomService.CheckUserHasRoomPermissions(RoomService.RoomToDict(room, available), user)
  {
  }

  /** The four checks of booking creation in the order they run: the room
      exists, it is not request-only for a direct booking, the user holds an
      allowed role, and no accepted booking overlaps. Yields the room. */
  function CheckBookable(db: Db, booking: BookingCreate, isRequest: bool, user: User): (r: Outcome<Room>)
    ensures !HasRoom(db.rooms, booking.roomNumber) ==> r == Fail(BadRequest, RoomDoesNotExist)
    ensures var found := RoomRepository.GetRoom(db.rooms, booking.roomNumber);
      && (found.Some? && found.value.requestOnly && !isRequest ==> r == Fail(BadRequest, RoomIsRequestOnly))
      && (found.Some? && (!found.value.requestOnly || isRequest) && !MayBookRoom(found.value, user) ==>
            r == Fail(Forbidden, InsufficientPermissions))
      && (r.Returned? <==>
            && found.Some? && (!found.value.requestOnly || isRequest) && MayBookRoom(found.value, user)
            && RoomRepository.RoomIsAvailable(db.bookings, booking.roomNumber, booking.startDatetime, booking.endDatetime))
    ensures (!RoomRepository.RoomIsAvailable(db.bookings, booking.roomNumber, booking.startDatetime, booking.endDatetime))
              ==> r.Raised?
    ensures r.Returned? ==> r.value in db.rooms && r.value.roomNumber == booking.roomNumber
  {
    match RoomRepository.GetRoom(db.rooms, booking.roomNumber)
    case None => Fail(BadRequest, RoomDoesNotExist)
    case Some(room) =>
      if room.requestOnly && !isRequest then Fail(BadRequest, RoomIsRequestOnly)
      else if !MayBookRoom(room, user) then Fail(Forbidden, InsufficientPermissions)
      else if !RoomRepository.RoomIsAvailable(db.bookings, booking.roomNumber, booking.startDatetime, booking.endDatetime)
      then Fail(BadRequest, RoomIsUnavailable)
      else Returned(room)
  }

  /** Creation with the `datetime_made` column the code relies on. */
  function BookingLogic(db: Db, booking: BookingCreate, isRequest: bool, user: User, now: Instant)
    : (r: Outcome<Written<Booking>>)
    // the checks, in order; the first failing one decides the error
    ensures var found := RoomRepository.GetRoom(db.rooms, booking.roomNumber);
      && (found.None? ==> r == Fail(BadRequest, RoomDoesNotExist))
      && (found.Some? && found.value.requestOnly && !isRequest ==> r == Fail(BadRequest, RoomIsRequestOnly))
      && (found.Some? && (!found.value.requestOnly || isRequest) && !MayBookRoom(found.value, user) ==>
            r == Fail(Forbidden, InsufficientPermissions))
      && (found.Some? && (!found.value.requestOnly || isRequest) && MayBookRoom(found.value, user)
          && !RoomRepository.RoomIsAvailable(db.bookings, booking.roomNumber, booking.startDatetime, booking.endDatetime)
          ==> r == Fail(BadRequest, RoomIsUnavailable))
      && (r.Returned? <==>
            && found.Some? && (!found.value.requestOnly || isRequest) && MayBookRoom(found.value, user)
            && RoomRepository.RoomIsAvailable(db.bookings, booking.roomNumber, booking.startDatetime, booking.endDatetime)
            && HasUser(db.users, user.id))
    // an overlapping accepted booking blocks requests as well as direct bookings
    ensures (!RoomRepository.RoomIsAvailable(db.bookings, booking.roomNumber, booking.startDatetime, booking.endDatetime))
              ==> r.Raised?
    ensures IsHttp(r)
    // the new booking and the only change to the database
    ensures r.Returned? ==>
      var b := r.value.value;
      && b.userId == user.id && b.roomNumber == booking.roomNumber
      && b.startTime == booking.startDatetime && b.endTime == booking.endDatetime
      && b.accepted == !isRequest && b.datetimeMade == now
      && (forall x :: x in db.bookings ==> x.id != b.id)
      && r.value.db == db.(bookings := db.bookings + [b])
  {
    HandleDbExceptions(
      match CheckBookable(db, booking, isRequest, user)
      case Raised(e) => Raised(e)
      case Returned(_) =>
        BookingRepository.CreateBookingInDb(db, NewBooking(user.id, booking.roomNumber, booking.startDatetime,
                                                           booking.endDatetime, Some(!isRequest), now)))
  }

  /** Creation as written: the row constructor is handed a `datetime_made`
      keyword the Booking model has no attribute for, so once every check
      passes it raises a TypeError, which surfaces as a 500. */
  function BookingLogicAsWritten(db: Db, booking: BookingCreate, isRequest: bool, user: User, now: Instant)
    : (r: Outcome<Written<Booking>>)
    ensures r.Raised?
    ensures BookingLogic(db, booking, isRequest, user, now).Returned? ==> r == Fail(InternalServerError, UnexpectedErrorDetail)
    ensures CheckBookable(db, booking, isRequest, user).Raised? ==> r == BookingLogic(db, booking, isRequest, user, now)
  {
    HandleDbExceptions(
      match CheckBookable(db, booking, isRequest, user)
      case Raised(e) => Raised(e)
      case Returned(_) => Raised(UnexpectedError))
  }

  function GetAllYourBookings(db: Db, userId: int): (r: Outcome<seq<Booking>>)
    ensures r.Returned? && r.value == BookingRepository.GetAllYourBookings(db.bookings, userId)
  {
    HandleDbExceptions(Returned(BookingRepository.GetAllYourBookings(db.bookings, userId)))
  }

  function GetYourBooking(db: Db, userId: int, bookingId: int): (r: Outcome<Option<Booking>>)
    ensures r.Returned? && r.value == BookingRepository.GetYourBooking(db.bookings, userId, bookingId)
  {
    HandleDbExceptions(Returned(BookingRepository.GetYourBooking(db.bookings, userId, bookingId)))
  }

  function GetAnyBooking(db: Db, bookingId: int): (r: Outcome<Option<Booking>>)
    ensures r.Returned? && r.value == BookingRepository.GetAnyBooking(db.bookings, bookingId)
  {
    HandleDbExceptions(Returned(BookingRepository.GetAnyBooking(db.bookings, bookingId)))
  }

  /** Moving a booking as written: the availability query is called with one
      argument more than it takes, the TypeError becomes a 500, and nothing
      is written, whatever the booking and the times. */
  function UpdateBookingAsWritten(db: Db, booking: Booking, desired: TimeRange): (r: Outcome<Written<Booking>>)
    ensures r == Fail(InternalServerError, UnexpectedErrorDetail)
  {
    HandleDbExceptions(Raised(UnexpectedError))
  }

  /** Moving a booking as intended: the new times must not overlap any other
      accepted booking of the room; the booking itself is left out of the check. */
  function UpdateBooking(db: Db, booking: Booking, desired: TimeRange): (r: Outcome<Written<Booking>>)
    ensures r.Returned? <==>
      RoomRepository.RoomIsAvailableExcluding(db.bookings, booking.roomNumber, desired.startDatetime,
                                              desired.endDatetime, booking.id)
    ensures r.Raised? ==> r == Fail(BadRequest, UpdateConflict)
    ensures r.Returned? ==> r.value == BookingRepository.UpdateBooking(db, booking, desired.startDatetime, desired.endDatetime)
  {
    HandleDbExceptions(
      if !RoomRepository.RoomIsAvailableExcluding(db.bookings, booking.roomNumber, desired.startDatetime,
                                                  desired.endDatetime, booking.id)
      then Fail(BadRequest, UpdateConflict)
      else Returned(BookingRepository.UpdateBooking(db, booking, desired.startDatetime, desired.endDatetime)))
  }

  /** A pending request as shown to an admin, joined with its requester's name. */
  datatype BookingRequestResponse = BookingRequestResponse(
    id: int, userId: int, username: string, startTime: Instant, endTime: Instant,
    accepted: bool, roomNumber: string, datetimeMade: Instant)

  function UserWithId(id: int): User -> bool {
    (u: User) => u.id == id
  }

  /** `v` shows booking `b` with the username of a stored user carrying `b`'s user id. */
  ghost predicate Describes(users: seq<User>, b: Booking, v: BookingRequestResponse) {
    && v.id == b.id && v.userId == b.userId && v.roomNumber == b.roomNumber
    && v.startTime == b.startTime && v.endTime == b.endTime
    && v.accepted == b.accepted && v.datetimeMade == b.datetimeMade
    && exists u :: u in users && u.id == b.userId && u.username == v.username
  }

  function ResponseOf(b: Booking, u: User): BookingRequestResponse {
    BookingRequestResponse(b.id, b.userId, u.username, b.startTime, b.endTime, b.accepted, b.roomNumber, b.datetimeMade)
  }

  /** Every booking's user is stored. */
  ghost predicate RequestersExist(users: seq<User>, bookings: seq<Booking>) {
    forall b :: b in bookings ==> HasUser(users, b.userId)
  }

  lemma RequestersExistCons(users: seq<User>, bookings: seq<Booking>)
    requires |bookings| > 0
    ensures RequestersExist(users, bookings) <==>
              HasUser(users, bookings[0].userId) && RequestersExist(users, bookings[1..])
  {
    assert forall x :: x in bookings <==> x == bookings[0] || x in bookings[1..] by {
      assert bookings == [bookings[0]] + bookings[1..];
    }
  }

  lemma DescribesCons(users: seq<User>, bookings: seq<Booking>, u: User, rest: seq<BookingRequestResponse>)
    requires |bookings| > 0 && u in users && u.id == bookings[0].userId
    requires |rest| == |bookings| - 1
    requires forall i :: 0 <= i < |rest| ==> Describes(users, bookings[1..][i], rest[i])
    ensures forall i :: 0 <= i < |bookings| ==> Describes(users, bookings[i], ([ResponseOf(bookings[0], u)] + rest)[i])
  {
    var all := [ResponseOf(bookings[0], u)] + rest;
    forall i | 0 <= i < |bookings| ensures Describes(users, bookings[i], all[i]) {
      if i > 0 {
        assert all[i] == rest[i - 1] && bookings[i] == bookings[1..][i - 1];
      }
    }
  }

  /** Joins each booking with its user; a booking whose user is missing makes
      the attribute access on `None` fail. */
  function JoinRequesters(users: seq<User>, bookings: seq<Booking>): (r: Outcome<seq<BookingRequestResponse>>)
    ensures r.Returned? <==> RequestersExist(users, bookings)
    ensures r.Raised? ==> r.exception == UnexpectedError
    ensures r.Returned? ==> |r.value| == |bookings|
    ensures r.Returned? ==> forall i :: 0 <= i < |bookings| ==> Describes(users, bookings[i], r.value[i])
  {
    if |bookings| == 0 then Returned([])
    else
      RequestersExistCons(users, bookings);
      match FirstWhere(users, UserWithId(bookings[0].userId))
      case None => Raised(UnexpectedError)
      case Some(u) =>
        match JoinRequesters(users, bookings[1..])
        case Raised(e) => Raised(e)
        case Returned(rest) =>
          DescribesCons(users, bookings, u, rest);
          Returned([ResponseOf(bookings[0], u)] + rest)
  }

  /** The admin's list of pending requests, earliest start first. */
  function GetAllRequests(db: Db): (r: Outcome<seq<BookingRequestResponse>>)
    ensures ReferencesExist(db) ==> r.Returned?
    ensures IsHttp(r)
    ensures r.Returned? ==>
      var pending := BookingRepository.GetAllRequests(db.bookings);
      && |r.value| == |pending|
      && (forall i :: 0 <= i < |pending| ==> Describes(db.users, pending[i], r.value[i]))
      && (forall i, j :: 0 <= i < j < |r.value| ==> r.value[i].startTime <= r.value[j].startTime)
  {
    var pending := BookingRepository.GetAllRequests(db.bookings);
    assert ReferencesExist(db) ==> RequestersExist(db.users, pending);
    HandleDbExceptions(JoinRequesters(db.users, pending))
  }

  /** The admin's list as written: every pending booking's `datetime_made` is
      read, an attribute the Booking model does not have, so the list fails
      with a 500 unless there is nothing pending. */
  function GetAllRequestsAsWritten(db: Db): (r: Outcome<seq<BookingRequestResponse>>)
    ensures r.Returned? <==> forall b :: b in db.bookings ==> b.accepted
    ensures r.Returned? ==> r.value == []
    ensures r.Raised? ==> r == Fail(InternalServerError, UnexpectedErrorDetail)
  {
    var pending := BookingRepository.GetAllRequests(db.bookings);
    HandleDbExceptions(if |pending| == 0 then Returned([]) else Raised(UnexpectedError))
  }

  /** Approval re-checks the slot against every accepted booking, including
      the booking itself, at approval time. */
  function AcceptBooking(db: Db, booking: Booking, now: Instant): (r: Outcome<Written<Booking>>)
    ensures r.Returned? <==>
      RoomRepository.RoomIsAvailable(db.bookings, booking.roomNumber, booking.startTime, booking.endTime)
    ensures r.Raised? ==> r == Fail(BadRequest, AcceptConflict)
    ensures r.Returned? ==> r.value == BookingRepository.AcceptBooking(db, booking, now)
  {
    HandleDbExceptions(
      if RoomRepository.RoomIsAvailable(db.bookings, booking.roomNumber, booking.startTime, booking.endTime)
      then Returned(BookingRepository.AcceptBooking(db, booking, now))
      else Fail(BadRequest, AcceptConflict))
  }

  /** An accepted booking overlaps itself, so approving it again fails. */
  lemma ReapprovingFails(db: Db, booking: Booking, now: Instant)
    requires booking in db.bookings && booking.accepted && booking.startTime < booking.endTime
    ensures AcceptBooking(db, booking, now) == Fail(BadRequest, AcceptConflict)
  {
    RoomRepository.OverlapMakesUnavailable(db.bookings, booking, booking.startTime, booking.endTime);
  }

  /** Deletion removes every row with the booking's id, keeps the others in
      order, reports that id, and leaves rooms, users and roles alone. */
  function DeleteBooking(db: Db, booking: Booking): (r: Written<BookingRepository.DeleteReceipt>)
    ensures forall b :: b in r.db.bookings <==> b in db.bookings && b.id != booking.id
    ensures r.value.id == booking.id
    ensures r.value.message == "Successfully deleted booking with id " + Text.IntToString(booking.id)
    ensures r.db.rooms == db.rooms && r.db.users == db.users && r.db.roles == db.roles
  {
    BookingRepository.DeleteBooking(db, booking)
  }

  // ----- the invariant ------------------------------------------------------

  /** A new booking that passed the availability check clashes with nothing
      already stored. */
  lemma AvailableIsCompatible(bookings: seq<Booking>, b: Booking)
    requires b.accepted ==> RoomRepository.RoomIsAvailable(bookings, b.roomNumber, b.startTime, b.endTime)
    ensures forall y :: y in bookings ==> Compatible(b, y) && Compatible(y, b)
  {
  }

  lemma {:induction false} BookingLogicKeepsValid(db: Db, booking: BookingCreate, isRequest: bool, user: User, now: Instant)
    requires Valid(db)
    requires booking.startDatetime < booking.endDatetime
    ensures BookingLogic(db, booking, isRequest, user, now).Returned? ==>
              Valid(BookingLogic(db, booking, isRequest, user, now).value.db)
  {
    var r := BookingLogic(db, booking, isRequest, user, now);
    if r.Returned? {
      var b := r.value.value;
      var d := r.value.db;
      assert RoomRepository.RoomIsAvailable(db.bookings, b.roomNumber, b.startTime, b.endTime);
      AvailableIsCompatible(db.bookings, b);
      AppendKeepsPairwise(db.bookings, b, Compatible);
      AppendKeepsPairwise(db.bookings, b, DistinctBookingIds);
      assert HasRoom(db.rooms, b.roomNumber);
      assert ReferencesExist(d);
    }
  }

  /** The shared step of approval and moving: one stored row is replaced by a
      row with the same id, room and owner that clashes with no other row. */
  lemma ReplaceKeepsValid(db: Db, k: nat, updated: Booking)
    requires Valid(db)
    requires k < |db.bookings|
    requires updated.id == db.bookings[k].id && updated.userId == db.bookings[k].userId
    requires updated.roomNumber == db.bookings[k].roomNumber
    requires updated.startTime < updated.endTime
    requires forall i :: 0 <= i < |db.bookings| && i != k ==> Compatible(updated, db.bookings[i])
    ensures Valid(db.(bookings := BookingRepository.ReplaceRow(db.bookings, updated)))
  {
    var rows := db.bookings;
    BookingRepository.ReplaceRowIsUpdateAt(rows, k, updated);
    var d := db.(bookings := rows[k := updated]);
    forall i | 0 <= i < |rows| && i != k
      ensures DistinctBookingIds(updated, rows[i]) && DistinctBookingIds(rows[i], updated)
      ensures Compatible(updated, rows[i]) && Compatible(rows[i], updated)
    {
      assert DistinctBookingIds(rows[k], rows[i]);
      ClashSymmetric(updated, rows[i]);
    }
    ReplaceKeepsPairwise(rows, k, updated, DistinctBookingIds);
    ReplaceKeepsPairwise(rows, k, updated, Compatible);
    assert rows[k] in rows;
    forall b | b in d.bookings ensures HasRoom(d.rooms, b.roomNumber) && HasUser(d.users, b.userId) && b.startTime < b.endTime {
      var i :| 0 <= i < |d.bookings| && d.bookings[i] == b;
      if i != k {
        assert b in rows;
      }
    }
  }

  lemma {:induction false} AcceptBookingKeepsValid(db: Db, booking: Booking, now: Instant)
    requires Valid(db)
    requires booking in db.bookings
    ensures AcceptBooking(db, booking, now).Returned? ==> Valid(AcceptBooking(db, booking, now).value.db)
  {
    var r := AcceptBooking(db, booking, now);
    if r.Returned? {
      var k :| 0 <= k < |db.bookings| && db.bookings[k] == booking;
      var approved := r.value.value;
      forall i | 0 <= i < |db.bookings| && i != k ensures Compatible(approved, db.bookings[i]) {
        assert db.bookings[i] in db.bookings;
      }
      ReplaceKeepsValid(db, k, approved);
    }
  }

  lemma {:induction false} UpdateBookingKeepsValid(db: Db, booking: Booking, desired: TimeRange)
    requires Valid(db)
    requires booking in db.bookings
    requires desired.startDatetime < desired.endDatetime
    ensures UpdateBooking(db, booking, desired).Returned? ==> Valid(UpdateBooking(db, booking, desired).value.db)
  {
    var r := UpdateBooking(db, booking, desired);
    if r.Returned? {
      var k :| 0 <= k < |db.bookings| && db.bookings[k] == booking;
      var moved := r.value.value;
      forall i | 0 <= i < |db.bookings| && i != k ensures Compatible(moved, db.bookings[i]) {
        assert db.bookings[i] in db.bookings;
        assert DistinctBookingIds(db.bookings[k], db.bookings[i]);
      }
      ReplaceKeepsValid(db, k, moved);
    }
  }

  lemma DeleteBookingKeepsValid(db: Db, booking: Booking)
    requires Valid(db)
    ensures Valid(DeleteBooking(db, booking).db)
  {
    FilterBookingsKeepsConstraints(db.bookings, BookingsOtherThan(booking.id));
  }

  // ----- witnesses for the findings ----------------------------------------

  const WitnessRoom := Room("101", 4, Some("Small meeting room"), false, [])
  const WitnessUser := User(1, "ann", "ann", "hash", [])

  /** A booking on an unrestricted room of an otherwise empty database is
      created by the corrected code and fails with a 500 as written. */
  lemma CreationFailsAsWritten()
    ensures var db := Db([WitnessRoom], [WitnessUser], {}, []);
      var request := BookingCreate("101", 3600, 7200);
      && BookingLogic(db, request, false, WitnessUser, 0).Returned?
      && BookingLogicAsWritten(db, request, false, WitnessUser, 0) == Fail(InternalServerError, UnexpectedErrorDetail)
  {
    var db := Db([WitnessRoom], [WitnessUser], {}, []);
    assert WitnessRoom in db.rooms && WitnessUser in db.users;
    assert HasRoom(db.rooms, "101") && HasUser(db.users, 1);
  }

  /** Extending the only booking of a room into time it already holds: the
      corrected update moves it, the code as written answers 500. */
  lemma UpdateFailsAsWritten()
    ensures var booking := Booking(1, 1, "101", 3600, 7200, true, 0);
      var db := Db([WitnessRoom], [WitnessUser], {}, [booking]);
      var desired := TimeRange(3600, 9000);
      && UpdateBooking(db, booking, desired).Returned?
      && UpdateBooking(db, booking, desired).value.value.endTime == 9000
      && UpdateBookingAsWritten(db, booking, desired) == Fail(InternalServerError, UnexpectedErrorDetail)
  {
  }

  /** One pending request: the corrected listing shows it, the code as
      written answers 500. */
  lemma ListingFailsAsWritten()
    ensures var booking := Booking(1, 1, "101", 3600, 7200, false, 0);
      var db := Db([WitnessRoom], [WitnessUser], {}, [booking]);
      && GetAllRequests(db).Returned? && |GetAllRequests(db).value| == 1
      && GetAllRequestsAsWritten(db) == Fail(InternalServerError, UnexpectedErrorDetail)
  {
    var booking := Booking(1, 1, "101", 3600, 7200, false, 0);
    var db := Db([WitnessRoom], [WitnessUser], {}, [booking]);
    assert WitnessRoom in db.rooms && WitnessUser in db.users;
    assert ReferencesExist(db);
    assert booking in BookingRepository.GetAllRequests(db.bookings);
    assert |BookingRepository.GetAllRequests(db.bookings)| == 1 by {
      var pending := BookingRepository.GetAllRequests(db.bookings);
      assert multiset(pending)[booking] == 1;
      assert forall b :: b in pending ==> b == booking;
      assert multiset(pending) == multiset{booking};
      assert |multiset(pending)| == 1;
    }
  }
}

=== FILE: dependencies.dfy ===
/** The role gate of app/api/dependencies.py. Resolving the current user
    from a token is left out; the gate receives the user. */
module Dependencies {
  import opened Outcomes
  import opened Models
  import UserService

  const InsufficientPermissions := "Insufficient permissions"
  const InvalidUser := "Invalid user"

  /** The user a request acts for, given the username its token carries:
      401 when no stored user has that name. */
  function CurrentUser(db: Db, username: string): (r: Outcome<User>)
    ensures r.Returned? <==> exists u :: u in db.users && u.username == username
    ensures r.Returned? ==> r.value in db.users && r.value.username == username
    ensures r.Raised? ==> r == Fail(Unauthorized, InvalidUser)
  {
    HandleDbExceptions(
      match UserService.GetUserByUsername(db.users, username)
      case None => Fail(Unauthorized, InvalidUser)
      case Some(user) => Returned(user))
  }

  /** Passes, returning the same user, exactly when every required role name
      is among the user's role names; compared as sets. */
  function RequireRole(requiredRoles: seq<string>, user: User): (r: Outcome<User>)
    ensures r.Returned? <==> forall n :: n in requiredRoles ==> n in RoleNames(user)
    ensures r.Returned? ==> r.value == user
    ensures r.Raised? ==> r == Fail(Forbidden, InsufficientPermissions)
  {
    var required := set n | n in requiredRoles;
    var held := set n | n in RoleNames(user);
    if !(required <= held) then
      Fail(Forbidden, InsufficientPermissions)
    else
      assert forall n :: n in requiredRoles ==> n in required && n in held;
      Returned(user)
  }

  /** Order and repetition in either list do not matter, and an empty
      requirement lets everyone through. */
  lemma RequireRoleSeesSets(a: seq<string>, b: seq<string>, user: User, other: User)
    requires forall n :: n in a <==> n in b
    requires forall n :: n in RoleNames(user) <==> n in RoleNames(other)
    ensures RequireRole(a, user).Returned? == RequireRole(b, other).Returned?
    ensures RequireRole([], user) == Returned(user)
  {
  }

  const Admin := ["admin"]

  predicate IsAdmin(user: User) {
    "admin" in RoleNames(user)
  }

  /** The admin gate lets through exactly the users holding the role "admin". */
  lemma AdminGate(user: User)
    ensures RequireRole(Admin, user) == if IsAdmin(user) then Returned(user) else Fail(Forbidden, InsufficientPermissions)
  {
  }
}

=== FILE: lifecycle.dfy ===
/** The system as a state machine: every write the routes and services can
    make, applied one request at a time, and the proof that every reachable
    database stays valid — in particular that the accepted bookings of a
    room never overlap. */
module Lifecycle {
  import opened Outcomes
  import opened Seqs
  import opened Models
  import Times
  import Dependencies
  import RoomRepository
  import BookingRepository
  import BookingService
  import BookingController
  import RoomController
  import RoomService
  import UserService

  /** One request. A route request names the username its token carries;
      role assignment has no route and is a direct service call. */
  datatype Action =
    | Book(caller: string, roomNumber: string, start: Instant, end: Instant)
    | RequestBooking(caller: string, roomNumber: string, start: Instant, end: Instant)
    | CancelBooking(caller: string, bookingId: int)
    | MoveBooking(caller: string, bookingId: int, start: Instant, end: Instant)
    | Approve(caller: string, bookingId: int)
    | Decline(caller: string, bookingId: int)
    | AddRoom(caller: string, room: RoomService.RoomCreate)
    | RemoveRoom(caller: string, roomNumber: string)
    | AssignRoles(username: string, roles: seq<string>)

  /** Which booking service code the routes run: the code as written, whose
      creation, move and pending list end in 500 once their checks pass, or
      the corrected code the rest of the model describes. */
  datatype Services = Corrected | AsWritten

  /** The database after a call: the committed one on success, the old one on
      any failure. */
  function Commit<T>(db: Db, o: Outcome<Written<T>>): (d: Db)
    ensures o.Returned? ==> d == o.value.db
    ensures o.Raised? ==> d == db
  {
    if o.Returned? then o.value.db else db
  }

  /** The effect of one request at instant `now`. */
  function Step(db: Db, a: Action, now: Instant, services: Services): Db {
    match a
    case AssignRoles(username, roles) => Commit(db, UserService.PutRoles(db, username, roles))
    case _ =>
      match Dependencies.CurrentUser(db, a.caller)
      case Raised(_) => db
      case Returned(user) => RouteStep(db, a, user, now, services)
  }

  /** The effect of a route called by an authenticated user. */
  function RouteStep(db: Db, a: Action, user: User, now: Instant, services: Services): Db {
    match a
    case AddRoom(_, room) => Commit(db, RoomController.CreateRoom(db, room, user))
    case RemoveRoom(_, n) => Commit(db, RoomController.DeleteRoom(db, n, user))
    case Book(_, n, s, e) =>
      if services == AsWritten then Commit(db, BookingController.CreateAsWritten(db, n, s, e, false, user, now))
      else Commit(db, BookingController.CreateBooking(db, n, s, e, user, now))
    case RequestBooking(_, n, s, e) =>
      if services == AsWritten then Commit(db, BookingController.CreateAsWritten(db, n, s, e, true, user, now))
      else Commit(db, BookingController.CreateBookingRequest(db, n, s, e, user, now))
    case CancelBooking(_, id) => Commit(db, BookingController.DeleteABooking(db, id, user))
    case MoveBooking(_, id, s, e) =>
      if services == AsWritten then Commit(db, BookingController.UpdateABookingAsWritten(db, id, s, e, user, now))
      else Commit(db, BookingController.UpdateABooking(db, id, s, e, user, now))
    case Approve(_, id) => Commit(db, BookingController.ApproveBookingRequest(db, id, user, now))
    case Decline(_, id) => Commit(db, BookingController.DeclineBookingRequest(db, id, user))
    case _ => db
  }

  /** A sequence of requests, each with the instant it arrives. */
  function Run(db: Db, requests: seq<(Action, Instant)>, services: Services): Db
    decreases |requests|
  {
    if |requests| == 0 then db
    else Run(Step(db, requests[0].0, requests[0].1, services), requests[1..], services)
  }

  /** With the service code as written, no creation or move request ever
      changes the database. */
  lemma AsWrittenBookingRoutesWriteNothing(db: Db, a: Action, user: User, now: Instant)
    requires a.Book? || a.RequestBooking? || a.MoveBooking?
    ensures RouteStep(db, a, user, now, AsWritten) == db
  {
  }

  lemma CreateKeepsValid(db: Db, roomNumber: string, start: Instant, end: Instant, isRequest: bool,
                         user: User, now: Instant)
    requires Valid(db)
    ensures Valid(Commit(db, BookingController.Create(db, roomNumber, start, end, isRequest, user, now)))
  {
    if Times.ValidateBookingCreate(roomNumber, start, end, now).Ok? {
      BookingService.BookingLogicKeepsValid(db, Times.BookingCreate(roomNumber, start, end), isRequest, user, now);
    }
  }

  lemma UpdateKeepsValid(db: Db, bookingId: int, start: Instant, end: Instant, user: User, now: Instant)
    requires Valid(db)
    ensures Valid(Commit(db, BookingController.UpdateABooking(db, bookingId, start, end, user, now)))
  {
    var r := BookingController.UpdateABooking(db, bookingId, start, end, user, now);
    if r.Returned? {
      var b :| b in db.bookings && b.id == bookingId && b.userId == user.id
               && r == BookingService.UpdateBooking(db, b, Times.TimeRange(start, end));
      BookingService.UpdateBookingKeepsValid(db, b, Times.TimeRange(start, end));
    }
  }

  lemma ApproveKeepsValid(db: Db, bookingId: int, user: User, now: Instant)
    requires Valid(db)
    ensures Valid(Commit(db, BookingController.ApproveBookingRequest(db, bookingId, user, now)))
  {
    var r := BookingController.ApproveBookingRequest(db, bookingId, user, now);
    if r.Returned? {
      var b :| b in db.bookings && b.id == bookingId
               && RoomRepository.RoomIsAvailable(db.bookings, b.roomNumber, b.startTime, b.endTime)
               && r.value.db == BookingRepository.AcceptBooking(db, b, now).db;
      BookingService.AcceptBookingKeepsValid(db, b, now);
    }
  }

  lemma DeleteRoutesKeepValid(db: Db, bookingId: int, user: User)
    requires Valid(db)
    ensures Valid(Commit(db, BookingController.DeleteABooking(db, bookingId, user)))
    ensures Valid(Commit(db, BookingController.DeclineBookingRequest(db, bookingId, user)))
  {
    FilterBookingsKeepsConstraints(db.bookings, BookingsOtherThan(bookingId));
    var d := db.(bookings := Filter(db.bookings, BookingsOtherThan(bookingId)));
    assert Valid(d);
  }

  lemma RouteStepKeepsValid(db: Db, a: Action, user: User, now: Instant, services: Services)
    requires Valid(db)
    ensures Valid(RouteStep(db, a, user, now, services))
  {
    match a
    case AddRoom(_, room) => RoomService.CreateRoomKeepsValid(db, room);
    case RemoveRoom(_, n) => RoomService.DeleteRoomKeepsValid(db, n);
    case Book(_, n, s, e) => CreateKeepsValid(db, n, s, e, false, user, now);
    case RequestBooking(_, n, s, e) => CreateKeepsValid(db, n, s, e, true, user, now);
    case CancelBooking(_, id) => DeleteRoutesKeepValid(db, id, user);
    case MoveBooking(_, id, s, e) => UpdateKeepsValid(db, id, s, e, user, now);
    case Approve(_, id) => ApproveKeepsValid(db, id, user, now);
    case Decline(_, id) => DeleteRoutesKeepValid(db, id, user);
    case _ =>
  }

  /** Every request leaves a valid database valid. */
  lemma StepKeepsValid(db: Db, a: Action, now: Instant, services: Services)
    requires Valid(db)
    ensures Valid(Step(db, a, now, services))
  {
    match a
    case AssignRoles(username, roles) => UserService.PutRolesKeepsValid(db, username, roles);
    case _ =>
      match Dependencies.CurrentUser(db, a.caller)
      case Raised(_) =>
      case Returned(user) => RouteStepKeepsValid(db, a, user, now, services);
  }

  /** Every database reachable from a valid one by any sequence of requests
      is valid, with either service code: keys stay unique, references
      resolve, and accepted bookings of a room never overlap. */
  lemma {:induction false} RunKeepsValid(db: Db, requests: seq<(Action, Instant)>, services: Services)
    requires Valid(db)
    ensures Valid(Run(db, requests, services))
    decreases |requests|
  {
    if |requests| > 0 {
      StepKeepsValid(db, requests[0].0, requests[0].1, services);
      RunKeepsValid(Step(db, requests[0].0, requests[0].1, services), requests[1..], services);
    }
  }
}

=== FILE: models.dfy ===
/** The persistent records (app/db/models.py) as immutable values, the
    database as four tables, and the constraints every reachable database
    satisfies. */
module Models {
  import opened Outcomes
  import opened Seqs

  /** An instant, in whole seconds, counted from an hour-aligned origin in the
      wall clock of the instant's own timezone. */
  type Instant = int

  /** A role; its name is its primary key. */
  datatype Role = Role(role: string)

  datatype Room = Room(
    roomNumber: string,
    capacity: int,
    description: Option<string>,
    requestOnly: bool,
    allowedRoles: seq<Role>)

  datatype User = User(
    id: int,
    name: string,
    username: string,
    hashedPassword: string,
    roles: seq<Role>)

  /** A booking row. `datetimeMade` is the moment the booking was made or last
      accepted; see README "## Findings" about this column. */
  datatype Booking = Booking(
    id: int,
    userId: int,
    roomNumber: string,
    startTime: Instant,
    endTime: Instant,
    accepted: bool,
    datetimeMade: Instant)

  /** The four tables, rows in storage order. The association tables are
      folded into `Room.allowedRoles` and `User.roles`. */
  datatype Db = Db(rooms: seq<Room>, users: seq<User>, roles: set<Role>, bookings: seq<Booking>)

  /** A committed write: what the call returns and the database after it. */
  datatype Written<+T> = Written(value: T, db: Db)

  /** The role strings of a role list, in the same order. */
  function RoleStrings(roles: seq<Role>): (names: seq<string>)
    ensures |names| == |roles|
    ensures forall i :: 0 <= i < |roles| ==> names[i] == roles[i].role
  {
    if |roles| == 0 then [] else [roles[0].role] + RoleStrings(roles[1..])
  }

  function AllowedRoleNames(room: Room): seq<string> {
    RoleStrings(room.allowedRoles)
  }

  function RoleNames(user: User): seq<string> {
    RoleStrings(user.roles)
  }

  /** A new booking row as the ORM builds it: `accepted` falls back to its
      column default, true, when the caller does not give it. */
  function NewBooking(userId: int, roomNumber: string, start: Instant, end: Instant,
                      accepted: Option<bool>, made: Instant): (b: Booking)
    ensures b.accepted <==> accepted != Some(false)
    ensures b.userId == userId && b.roomNumber == roomNumber
    ensures b.startTime == start && b.endTime == end && b.datetimeMade == made
  {
    Booking(0, userId, roomNumber, start, end, if accepted.Some? then accepted.value else true, made)
  }

  // ----- keys and constraints --------------------------------------------

  predicate DistinctRoomNumbers(a: Room, b: Room) { a.roomNumber != b.roomNumber }
  predicate DistinctUserIds(a: User, b: User) { a.id != b.id }
  predicate DistinctUsernames(a: User, b: User) { a.username != b.username }
  predicate DistinctBookingIds(a: Booking, b: Booking) { a.id != b.id }

  predicate HasRoom(rooms: seq<Room>, roomNumber: string) {
    exists r :: r in rooms && r.roomNumber == roomNumber
  }

  predicate HasUser(users: seq<User>, id: int) {
    exists u :: u in users && u.id == id
  }

  /** Half-open overlap of a booking with the interval [start, end). */
  predicate Overlaps(b: Booking, start: Instant, end: Instant) {
    b.startTime < end && b.endTime > start
  }

  /** Two bookings that may not both exist: both accepted, same room,
      overlapping intervals. */
  predicate Clash(a: Booking, b: Booking) {
    a.accepted && b.accepted && a.roomNumber == b.roomNumber && Overlaps(a, b.startTime, b.endTime)
  }

  predicate Compatible(a: Booking, b: Booking) { !Clash(a, b) }

  /** Accepted bookings of the same room are pairwise non-overlapping. */
  predicate NoAcceptedOverlap(bookings: seq<Booking>) {
    Pairwise(bookings, Compatible)
  }

  predicate WellFormedTimes(bookings: seq<Booking>) {
    forall b :: b in bookings ==> b.startTime < b.endTime
  }

  /** Every booking's room and user exist (foreign keys). */
  predicate ReferencesExist(db: Db) {
    forall b :: b in db.bookings ==> HasRoom(db.rooms, b.roomNumber) && HasUser(db.users, b.userId)
  }

  /** Every role a room or user names exists (association-table foreign keys). */
  predicate RolesKnown(db: Db) {
    && (forall room, r :: room in db.rooms && r in room.allowedRoles ==> r in db.roles)
    && (forall user, r :: user in db.users && r in user.roles ==> r in db.roles)
  }

  /** Every stored room has a description (a NOT NULL column). */
  predicate DescriptionsStored(rooms: seq<Room>) {
    forall room :: room in rooms ==> room.description.Some?
  }

  /** The constraints of every database the services can reach. */
  predicate Valid(db: Db) {
    && Pairwise(db.rooms, DistinctRoomNumbers)
    && Pairwise(db.users, DistinctUserIds)
    && Pairwise(db.users, DistinctUsernames)
    && Pairwise(db.bookings, DistinctBookingIds)
    && ReferencesExist(db)
    && RolesKnown(db)
    && DescriptionsStored(db.rooms)
    && WellFormedTimes(db.bookings)
    && NoAcceptedOverlap(db.bookings)
  }

  lemma ClashSymmetric(a: Booking, b: Booking)
    ensures Clash(a, b) <==> Clash(b, a)
  {
  }

  /** An accepted booking with a non-empty interval clashes with itself, so a
      database holding it twice violates the invariant. */
  lemma AcceptedClashesWithItself(b: Booking)
    requires b.accepted && b.startTime < b.endTime
    ensures Clash(b, b)
  {
  }

  // ----- cascading deletes -------------------------------------------------

  function OtherRooms(roomNumber: string): Room -> bool {
    (r: Room) => r.roomNumber != roomNumber
  }

  function BookingsOfOtherRooms(roomNumber: string): Booking -> bool {
    (b: Booking) => b.roomNumber != roomNumber
  }

  function BookingsOtherThan(bookingId: int): Booking -> bool {
    (b: Booking) => b.id != bookingId
  }

  function OtherUsers(userId: int): User -> bool {
    (u: User) => u.id != userId
  }

  function BookingsOfOtherUsers(userId: int): Booking -> bool {
    (b: Booking) => b.userId != userId
  }

  /** Deleting a room removes it and, by cascade, every booking of it. */
  function DeleteRoomCascade(db: Db, roomNumber: string): (d: Db)
    ensures forall r :: r in d.rooms <==> r in db.rooms && r.roomNumber != roomNumber
    ensures forall b :: b in d.bookings <==> b in db.bookings && b.roomNumber != roomNumber
    ensures d.users == db.users && d.roles == db.roles
  {
    db.(rooms := Filter(db.rooms, OtherRooms(roomNumber)),
        bookings := Filter(db.bookings, BookingsOfOtherRooms(roomNumber)))
  }

  /** Deleting a user removes them and, by cascade, every booking they own. */
  function DeleteUserCascade(db: Db, userId: int): (d: Db)
    ensures forall u :: u in d.users <==> u in db.users && u.id != userId
    ensures forall b :: b in d.bookings <==> b in db.bookings && b.userId != userId
    ensures d.rooms == db.rooms && d.roles == db.roles
  {
    db.(users := Filter(db.users, OtherUsers(userId)),
        bookings := Filter(db.bookings, BookingsOfOtherUsers(userId)))
  }

  /** Removing bookings keeps every booking constraint. */
  lemma FilterBookingsKeepsConstraints(bookings: seq<Booking>, p: Booking -> bool)
    requires Pairwise(bookings, DistinctBookingIds)
    requires WellFormedTimes(bookings)
    requires NoAcceptedOverlap(bookings)
    ensures Pairwise(Filter(bookings, p), DistinctBookingIds)
    ensures WellFormedTimes(Filter(bookings, p))
    ensures NoAcceptedOverlap(Filter(bookings, p))
  {
    FilterKeepsPairwise(bookings, p, DistinctBookingIds);
    FilterKeepsPairwise(bookings, p, Compatible);
  }

  lemma DeleteRoomCascadeKeepsValid(db: Db, roomNumber: string)
    requires Valid(db)
    ensures Valid(DeleteRoomCascade(db, roomNumber))
  {
    var d := DeleteRoomCascade(db, roomNumber);
    FilterKeepsPairwise(db.rooms, OtherRooms(roomNumber), DistinctRoomNumbers);
    FilterBookingsKeepsConstraints(db.bookings, BookingsOfOtherRooms(roomNumber));
    forall b | b in d.bookings ensures HasRoom(d.rooms, b.roomNumber) {
      var r :| r in db.rooms && r.roomNumber == b.roomNumber;
      assert r in d.rooms;
    }
  }

  lemma DeleteUserCascadeKeepsValid(db: Db, userId: int)
    requires Valid(db)
    ensures Valid(DeleteUserCascade(db, userId))
  {
    var d := DeleteUserCascade(db, userId);
    FilterKeepsPairwise(db.users, OtherUsers(userId), DistinctUserIds);
    FilterKeepsPairwise(db.users, OtherUsers(userId), DistinctUsernames);
    FilterBookingsKeepsConstraints(db.bookings, BookingsOfOtherUsers(userId));
    forall b | b in d.bookings ensures HasUser(d.users, b.userId) {
      var u :| u in db.users && u.id == b.userId;
      assert u in d.users;
    }
  }
}

=== FILE: outcomes.dfy ===
/** Values a service call can produce: a returned value or a raised exception,
    and the translation `handle_db_exceptions` applies at the service boundary
    (app/services/exception_wrapper.py). */
module Outcomes {

  /** The result of a query's `.first()`: a row or nothing. */
  datatype Option<+T> = None | Some(value: T)

  /** A value or a typed failure; used for request-schema validation. */
  datatype Result<+T, +E> = Ok(value: T) | Err(error: E)

  const BadRequest: int := 400
  const Unauthorized: int := 401
  const Forbidden: int := 403
  const NotFound: int := 404
  const UnprocessableEntity: int := 422
  const InternalServerError: int := 500

  const DatabaseErrorDetail := "Database error occurred"
  const UnexpectedErrorDetail := "An unexpected error occurred"

  /** What a service call may raise. */
  datatype Exception =
    | HttpException(status: int, detail: string)
      /** any SQLAlchemyError: a violated constraint, a lost connection, … */
    | DatabaseError
      /** any other Python exception: a TypeError, an AttributeError, … */
    | UnexpectedError

  /** A call either returns a value or raises; usable with `:-`. */
  datatype Outcome<+T> = Returned(value: T) | Raised(exception: Exception)
  {
    predicate IsFailure() {
      Raised?
    }

    function PropagateFailure<U>(): Outcome<U>
      requires Raised?
    {
      Raised(exception)
    }

    function Extract(): T
      requires Returned?
    {
      value
    }
  }

  function Fail<T>(status: int, detail: string): Outcome<T> {
    Raised(HttpException(status, detail))
  }

  /** An outcome a client can see: a value, or an HTTP error. */
  predicate IsHttp<T>(o: Outcome<T>) {
    o.Returned? || o.exception.HttpException?
  }

  /** The translation done by the `handle_db_exceptions` decorator. */
  function HandleDbExceptions<T>(o: Outcome<T>): (r: Outcome<T>)
    ensures o.Returned? ==> r == o
    ensures o.Raised? && o.exception.HttpException? ==> r == o
    ensures o == Raised(DatabaseError) ==> r == Fail(InternalServerError, DatabaseErrorDetail)
    ensures o == Raised(UnexpectedError) ==> r == Fail(InternalServerError, UnexpectedErrorDetail)
    ensures IsHttp(r)
  {
    match o
    case Returned(_) => o
    case Raised(HttpException(_, _)) => o
    case Raised(DatabaseError) => Fail(InternalServerError, DatabaseErrorDetail)
    case Raised(UnexpectedError) => Fail(InternalServerError, UnexpectedErrorDetail)
  }

  /** An outcome is left alone by the translation exactly when it is already
      visible to a client; so translating twice is translating once. */
  lemma HandleDbExceptionsFixedPoints<T>(o: Outcome<T>)
    ensures HandleDbExceptions(o) == o <==> IsHttp(o)
    ensures HandleDbExceptions(HandleDbExceptions(o)) == HandleDbExceptions(o)
  {
  }
}

=== FILE: role_repository.dfy ===
/** Role lookups and role assignment (app/repositories/role_repository.py),
    and the name-by-name role resolution the room and user services share. */
module RoleRepository {
  import opened Outcomes
  import opened Models

  function GetRole(roles: set<Role>, name: string): (r: Option<Role>)
    ensures r.Some? <==> Role(name) in roles
    ensures r.Some? ==> r.value == Role(name)
  {
    if Role(name) in roles then Some(Role(name)) else None
  }

  /** The 404 detail both services give for a role name that is not stored. */
  function RoleNotFound(name: string): string {
    "Role '" + name + "' not found"
  }

  /** Looks up each name in turn; stops at the first unknown name and
      reports it, otherwise returns the roles in the order named. */
  function ResolveRoles(roles: set<Role>, names: seq<string>): (r: Result<seq<Role>, string>)
    ensures r.Ok? <==> forall n :: n in names ==> Role(n) in roles
    ensures r.Ok? ==> RoleStrings(r.value) == names
    ensures r.Ok? ==> forall x :: x in r.value ==> x in roles
    ensures r.Err? ==> exists i :: 0 <= i < |names| && names[i] == r.error && Role(names[i]) !in roles
                                     && forall j :: 0 <= j < i ==> Role(names[j]) in roles
  {
    if |names| == 0 then Ok([])
    else
      match GetRole(roles, names[0])
      case None => Err(names[0])
      case Some(first) =>
        match ResolveRoles(roles, names[1..])
        case Err(missing) =>
          assert exists i :: 0 <= i < |names| && names[i] == missing && Role(names[i]) !in roles
                             && forall j :: 0 <= j < i ==> Role(names[j]) in roles by {
            var i :| 0 <= i < |names[1..]| && names[1..][i] == missing && Role(names[1..][i]) !in roles
                     && forall j :: 0 <= j < i ==> Role(names[1..][j]) in roles;
            assert names[i + 1] == missing;
            assert forall j :: 0 <= j < i + 1 ==> Role(names[j]) in roles by {
              forall j | 0 <= j < i + 1 ensures Role(names[j]) in roles {
                if j > 0 {
                  assert names[j] == names[1..][j - 1];
                }
              }
            }
          }
          Err(missing)
        case Ok(rest) =>
          assert names == [names[0]] + names[1..];
          Ok([first] + rest)
  }

  /** Replaces a user's role list wholesale. */
  function UpdateRoles(db: Db, user: User, roles: seq<Role>): (r: Written<User>)
    ensures r.value == user.(roles := roles)
    ensures |r.db.users| == |db.users|
    ensures forall i :: 0 <= i < |db.users| ==>
              r.db.users[i] == if db.users[i].id == user.id then user.(roles := roles) else db.users[i]
    ensures r.db.rooms == db.rooms && r.db.roles == db.roles && r.db.bookings == db.bookings
  {
    var updated := user.(roles := roles);
    Written(updated, db.(users := seq(|db.users|, i requires 0 <= i < |db.users| =>
                                        if db.users[i].id == user.id then updated else db.users[i])))
  }
}

=== FILE: room_controller.dfy ===
/** The admin-only room routes (app/api/room_controller.py): the role gate
    runs before the service call, so a non-admin can neither create nor
    delete a room. */
module RoomController {
  import opened Outcomes
  import opened Models
  import Dependencies
  import RoomService

  /** POST /rooms. */
  function CreateRoom(db: Db, room: RoomService.RoomCreate, caller: User): (r: Outcome<Written<Room>>)
    ensures !Dependencies.IsAdmin(caller) ==> r == Fail(Forbidden, Dependencies.InsufficientPermissions)
    ensures Dependencies.IsAdmin(caller) ==> r == RoomService.CreateRoom(db, room)
  {
    Dependencies.AdminGate(caller);
    var _ :- Dependencies.RequireRole(Dependencies.Admin, caller);
    RoomService.CreateRoom(db, room)
  }

  /** DELETE /rooms/{room_number}. */
  function DeleteRoom(db: Db, roomNumber: string, caller: User): (r: Outcome<Written<RoomService.DeleteRoomReceipt>>)
    ensures !Dependencies.IsAdmin(caller) ==> r == Fail(Forbidden, Dependencies.InsufficientPermissions)
    ensures Dependencies.IsAdmin(caller) ==> r == RoomService.DeleteRoom(db, roomNumber)
  {
    Dependencies.AdminGate(caller);
    var _ :- Dependencies.RequireRole(Dependencies.Admin, caller);
    RoomService.DeleteRoom(db, roomNumber)
  }
}

=== FILE: room_repository.dfy ===
/** Room queries and the availability engine
    (app/repositories/room_repository.py). Queries are functions of the
    database and return no database, so they cannot change it. */
module RoomRepository {
  import opened Outcomes
  import opened Seqs
  import opened Models

  /** Every stored room, in table order. */
  function GetAllRooms(db: Db): (rooms: seq<Room>)
    ensures |rooms| == |db.rooms|
    ensures forall i :: 0 <= i < |rooms| ==> rooms[i] == db.rooms[i]
  {
    db.rooms
  }

  function HasNumber(roomNumber: string): Room -> bool {
    (r: Room) => r.roomNumber == roomNumber
  }

  /** The first room with this number, if any. */
  function GetRoom(rooms: seq<Room>, roomNumber: string): (r: Option<Room>)
    ensures r.Some? ==> r.value in rooms && r.value.roomNumber == roomNumber
    ensures r.None? <==> !HasRoom(rooms, roomNumber)
  {
    FirstWhere(rooms, HasNumber(roomNumber))
  }

  /** With unique room numbers, the lookup finds the one room that has it. */
  lemma GetRoomFindsTheRoom(rooms: seq<Room>, room: Room)
    requires Pairwise(rooms, DistinctRoomNumbers)
    requires room in rooms
    ensures GetRoom(rooms, room.roomNumber) == Some(room)
  {
    var found := GetRoom(rooms, room.roomNumber);
    var i :| 0 <= i < |rooms| && rooms[i] == found.value;
    var j :| 0 <= j < |rooms| && rooms[j] == room;
    assert !DistinctRoomNumbers(rooms[i], rooms[j]);
  }

  /** Inserts a room. The description column is NOT NULL and has no default,
      so the commit of a room without one fails and nothing is written. */
  function CreateRoomInDb(db: Db, room: Room): (r: Outcome<Db>)
    ensures r.Returned? <==> room.description.Some?
    ensures r.Raised? ==> r.exception == DatabaseError
    ensures r.Returned? ==> r.value.rooms == db.rooms + [room]
    ensures r.Returned? ==> r.value.users == db.users && r.value.roles == db.roles && r.value.bookings == db.bookings
  {
    if room.description.None? then Raised(DatabaseError)
    else Returned(db.(rooms := db.rooms + [room]))
  }

  /** Deleting a room row; the ORM cascade removes its bookings too. */
  function DeleteRoomInDb(db: Db, room: Room): (d: Db)
    ensures forall r :: r in d.rooms <==> r in db.rooms && r.roomNumber != room.roomNumber
    ensures forall b :: b in d.bookings <==> b in db.bookings && b.roomNumber != room.roomNumber
    ensures d.users == db.users && d.roles == db.roles
  {
    DeleteRoomCascade(db, room.roomNumber)
  }

  function CapacityAtLeast(minCapacity: int): Room -> bool {
    (r: Room) => r.capacity >= minCapacity
  }

  /** The rooms seating at least `minCapacity`, in table order. */
  function GetRoomsCapacity(rooms: seq<Room>, minCapacity: int): (r: seq<Room>)
    ensures forall room :: room in r <==> room in rooms && room.capacity >= minCapacity
    ensures forall room :: multiset(r)[room] == if room.capacity >= minCapacity then multiset(rooms)[room] else 0
  {
    Filter(rooms, CapacityAtLeast(minCapacity))
  }

  /** Despite its name, the time window plays no part in the result. */
  function GetRoomsWithAvailabilityCheck(rooms: seq<Room>, minCapacity: int, desiredStart: Instant, desiredEnd: Instant)
    : (r: seq<Room>)
    ensures forall room :: room in r <==> room in rooms && room.capacity >= minCapacity
  {
    GetRoomsCapacity(rooms, minCapacity)
  }

  lemma AvailabilityCheckIgnoresTimes(rooms: seq<Room>, minCapacity: int, s1: Instant, e1: Instant, s2: Instant, e2: Instant)
    ensures GetRoomsWithAvailabilityCheck(rooms, minCapacity, s1, e1) == GetRoomsWithAvailabilityCheck(rooms, minCapacity, s2, e2)
  {
  }

  /** A capacity search with a minimum no room falls short of lists every
      room, as the full listing does. */
  lemma CapacitySearchCanListAll(db: Db, minCapacity: int)
    requires forall room :: room in db.rooms ==> room.capacity >= minCapacity
    ensures GetRoomsCapacity(db.rooms, minCapacity) == GetAllRooms(db)
  {
    FilterKeepsAll(db.rooms, CapacityAtLeast(minCapacity));
  }

  /** An accepted booking overlapping [start, end), in any room. */
  predicate Conflicting(b: Booking, start: Instant, end: Instant) {
    b.accepted && Overlaps(b, start, end)
  }

  /** The numbers of rooms holding an accepted booking that overlaps
      [desiredStart, desiredEnd). */
  function GetConflictingRoomNumbers(bookings: seq<Booking>, desiredStart: Instant, desiredEnd: Instant)
    : (numbers: set<string>)
    ensures forall b :: b in bookings && Conflicting(b, desiredStart, desiredEnd) ==> b.roomNumber in numbers
    ensures forall n :: n in numbers ==> exists b :: b in bookings && b.roomNumber == n && Conflicting(b, desiredStart, desiredEnd)
  {
    set b | b in bookings && Conflicting(b, desiredStart, desiredEnd) :: b.roomNumber
  }

  function ConflictsIn(roomNumber: string, desiredStart: Instant, desiredEnd: Instant): Booking -> bool {
    (b: Booking) => b.roomNumber == roomNumber && b.accepted && b.startTime < desiredEnd && b.endTime > desiredStart
  }

  /** True iff no accepted booking of this room overlaps [desiredStart, desiredEnd):
      the query looks for the first such booking and reports whether there is none. */
  predicate RoomIsAvailable(bookings: seq<Booking>, roomNumber: string, desiredStart: Instant, desiredEnd: Instant)
    ensures RoomIsAvailable(bookings, roomNumber, desiredStart, desiredEnd) <==>
              forall b :: b in bookings && b.roomNumber == roomNumber ==> !Conflicting(b, desiredStart, desiredEnd)
  {
    FirstWhere(bookings, ConflictsIn(roomNumber, desiredStart, desiredEnd)).None?
  }

  /** The batch query and the single-room query agree on every room. */
  lemma ConflictingAgreesWithAvailable(bookings: seq<Booking>, roomNumber: string, desiredStart: Instant, desiredEnd: Instant)
    ensures (roomNumber !in GetConflictingRoomNumbers(bookings, desiredStart, desiredEnd)) <==>
              RoomIsAvailable(bookings, roomNumber, desiredStart, desiredEnd)
  {
    if !RoomIsAvailable(bookings, roomNumber, desiredStart, desiredEnd) {
      var b :| b in bookings && b.roomNumber == roomNumber && Conflicting(b, desiredStart, desiredEnd);
      assert roomNumber in GetConflictingRoomNumbers(bookings, desiredStart, desiredEnd);
    }
  }

  /** A booking that is pending, belongs to another room, or does not overlap
      the half-open window (back-to-back included) never changes availability. */
  lemma AvailabilityIgnoresHarmless(bookings: seq<Booking>, x: Booking, roomNumber: string, desiredStart: Instant, desiredEnd: Instant)
    requires !x.accepted || x.roomNumber != roomNumber || x.endTime <= desiredStart || x.startTime >= desiredEnd
    ensures RoomIsAvailable(bookings + [x], roomNumber, desiredStart, desiredEnd)
              == RoomIsAvailable(bookings, roomNumber, desiredStart, desiredEnd)
  {
    if RoomIsAvailable(bookings, roomNumber, desiredStart, desiredEnd) {
      forall b | b in bookings + [x] && b.roomNumber == roomNumber ensures !Conflicting(b, desiredStart, desiredEnd) {
        if b != x {
          assert b in bookings;
        }
      }
    } else {
      var b :| b in bookings && b.roomNumber == roomNumber && Conflicting(b, desiredStart, desiredEnd);
      assert b in bookings + [x];
    }
  }

  /** An accepted booking of the room that overlaps the window makes it unavailable. */
  lemma OverlapMakesUnavailable(bookings: seq<Booking>, x: Booking, desiredStart: Instant, desiredEnd: Instant)
    requires x in bookings && x.accepted
    requires x.startTime < desiredEnd && x.endTime > desiredStart
    ensures !RoomIsAvailable(bookings, x.roomNumber, desiredStart, desiredEnd)
  {
  }

  // ----- the exclude-id variant the booking update needs ------------------

  /** Availability ignoring one booking, so a booking being moved does not
      conflict with itself. */
  predicate RoomIsAvailableExcluding(bookings: seq<Booking>, roomNumber: string, desiredStart: Instant,
                                     desiredEnd: Instant, excludeId: int)
    ensures RoomIsAvailableExcluding(bookings, roomNumber, desiredStart, desiredEnd, excludeId) <==>
              forall b :: b in bookings && b.roomNumber == roomNumber && b.id != excludeId ==>
                !Conflicting(b, desiredStart, desiredEnd)
  {
    RoomIsAvailable(Filter(bookings, BookingsOtherThan(excludeId)), roomNumber, desiredStart, desiredEnd)
  }

  /** Excluding an id no booking carries changes nothing. */
  lemma ExcludingAbsentIdIsPlainCheck(bookings: seq<Booking>, roomNumber: string, desiredStart: Instant,
                                      desiredEnd: Instant, excludeId: int)
    requires forall b :: b in bookings ==> b.id != excludeId
    ensures RoomIsAvailableExcluding(bookings, roomNumber, desiredStart, desiredEnd, excludeId)
              == RoomIsAvailable(bookings, roomNumber, desiredStart, desiredEnd)
  {
  }
}

=== FILE: room_service.dfy ===
/** The room directory (app/services/room_service.py): the room view sent to
    clients, the role-visibility check, the time-window search, creation and
    deletion. */
module RoomService {
  import opened Outcomes
  import opened Seqs
  import opened Models
  import RoomRepository
  import RoleRepository

  const RoomExists := "Room with room number already exists"

  function RoomNotFound(roomNumber: string): string {
    "Room with room number " + roomNumber + " not found"
  }

  /** A room as the API shows it, with its role names and an availability flag. */
  datatype RoomView = RoomView(
    roomNumber: string,
    capacity: int,
    description: Option<string>,
    requestOnly: bool,
    allowedRoles: seq<string>,
    available: bool)

  function RoomToDict(room: Room, available: bool): (v: RoomView)
    ensures v.roomNumber == room.roomNumber && v.capacity == room.capacity
    ensures v.description == room.description && v.requestOnly == room.requestOnly
    ensures v.allowedRoles == AllowedRoleNames(room) && v.available == available
  {
    RoomView(room.roomNumber, room.capacity, room.description, room.requestOnly, AllowedRoleNames(room), available)
  }

  /** The views of a list of rooms, all carrying the same flag, in order. */
  function Views(rooms: seq<Room>, available: bool): (vs: seq<RoomView>)
    ensures |vs| == |rooms|
    ensures forall i :: 0 <= i < |rooms| ==> vs[i] == RoomToDict(rooms[i], available)
  {
    seq(|rooms|, i requires 0 <= i < |rooms| => RoomToDict(rooms[i], available))
  }

  lemma ViewsAppend(a: seq<Room>, b: seq<Room>, available: bool)
    ensures Views(a + b, available) == Views(a, available) + Views(b, available)
  {
    var l, r := Views(a + b, available), Views(a, available) + Views(b, available);
    forall i | 0 <= i < |l| ensures l[i] == r[i] {
      if i < |a| {
        assert (a + b)[i] == a[i];
      } else {
        assert (a + b)[i] == b[i - |a|];
      }
    }
  }

  /** `any(role in held for role in names)`, scanning left to right. */
  function AnyHeld(names: seq<string>, held: seq<string>): (r: bool)
    ensures r <==> exists i :: 0 <= i < |names| && names[i] in held
  {
    if |names| == 0 then false
    else if names[0] in held then true
    else
      var rest := AnyHeld(names[1..], held);
      assert rest <==> exists i :: 1 <= i < |names| && names[i] in held by {
        if rest {
          var i :| 0 <= i < |names[1..]| && names[1..][i] in held;
          assert names[i + 1] in held;
        } else {
          forall i | 1 <= i < |names| ensures names[i] !in held {
            assert names[i] == names[1..][i - 1];
          }
        }
      }
      rest
  }

  /** A room without role restrictions admits everyone; otherwise the user
      must hold at least one of its roles. */
  function CheckUserHasRoomPermissions(view: RoomView, user: User): (r: bool)
    ensures r <==> |view.allowedRoles| == 0 || exists n :: n in view.allowedRoles && n in RoleNames(user)
  {
    if |view.allowedRoles| == 0 then true
    else
      var any := AnyHeld(view.allowedRoles, RoleNames(user));
      assert any <==> exists n :: n in view.allowedRoles && n in RoleNames(user) by {
        if exists n :: n in view.allowedRoles && n in RoleNames(user) {
          var n :| n in view.allowedRoles && n in RoleNames(user);
          var i :| 0 <= i < |view.allowedRoles| && view.allowedRoles[i] == n;
        }
      }
      any
  }

  function NotIn(numbers: set<string>): Room -> bool {
    (r: Room) => r.roomNumber !in numbers
  }

  function In(numbers: set<string>): Room -> bool {
    (r: Room) => r.roomNumber in numbers
  }

  /** The shape of a room search's answer: the candidates free over the
      window, then the others, flagged accordingly. */
  ghost predicate IsListing(db: Db, minCapacity: int, desiredStart: Instant, desiredEnd: Instant, views: seq<RoomView>) {
    var candidates := RoomRepository.GetRoomsCapacity(db.rooms, minCapacity);
    var conflicting := RoomRepository.GetConflictingRoomNumbers(db.bookings, desiredStart, desiredEnd);
    views == Views(Filter(candidates, NotIn(conflicting)), true) + Views(Filter(candidates, In(conflicting)), false)
  }

  /** One loop step of the search: a room the predicate keeps gains one view. */
  lemma ViewsSnoc(rooms: seq<Room>, room: Room, keep: Room -> bool, available: bool)
    ensures Views(Filter(rooms + [room], keep), available) ==
              if keep(room) then Views(Filter(rooms, keep), available) + [RoomToDict(room, available)]
              else Views(Filter(rooms, keep), available)
  {
    FilterSnoc(rooms, room, keep);
    if keep(room) {
      ViewsAppend(Filter(rooms, keep), [room], available);
    }
  }

  /** The loop of the search: one pass over the candidates, appending each
      room's view to the free or the taken list; the answer is the free list
      followed by the taken one. */
  method SplitByConflict(candidates: seq<Room>, conflicting: set<string>) returns (views: seq<RoomView>)
    ensures views == Views(Filter(candidates, NotIn(conflicting)), true) + Views(Filter(candidates, In(conflicting)), false)
  {
    var available: seq<RoomView> := [];
    var unavailable: seq<RoomView> := [];
    var i := 0;
    while i < |candidates|
      invariant 0 <= i <= |candidates|
      invariant available == Views(Filter(candidates[..i], NotIn(conflicting)), true)
      invariant unavailable == Views(Filter(candidates[..i], In(conflicting)), false)
    {
      var room := candidates[i];
      TakeOneMore(candidates, i);
      ViewsSnoc(candidates[..i], room, NotIn(conflicting), true);
      ViewsSnoc(candidates[..i], room, In(conflicting), false);
      if room.roomNumber !in conflicting {
        available := available + [RoomToDict(room, true)];
      } else {
        unavailable := unavailable + [RoomToDict(room, false)];
      }
      i := i + 1;
    }
    assert candidates[..i] == candidates;
    views := available + unavailable;
  }

  /** The rooms seating at least `minCapacity`: those free over the window
      first, then the others, each in table order and flagged accordingly. */
  method GetAvailableRoomsTime(db: Db, minCapacity: int, desiredStart: Instant, desiredEnd: Instant)
    returns (r: Outcome<seq<RoomView>>)
    ensures r.Returned? && IsListing(db, minCapacity, desiredStart, desiredEnd, r.value)
  {
    var candidates := RoomRepository.GetRoomsWithAvailabilityCheck(db.rooms, minCapacity, desiredStart, desiredEnd);
    var conflicting := RoomRepository.GetConflictingRoomNumbers(db.bookings, desiredStart, desiredEnd);
    var views := SplitByConflict(candidates, conflicting);
    r := HandleDbExceptions(Returned(views));
  }

  /** In a list of free views followed by taken ones, the flag says which part
      an entry is in, so no unavailable entry precedes an available one. */
  lemma ConcatViewsOrder(free: seq<Room>, taken: seq<Room>, views: seq<RoomView>)
    requires views == Views(free, true) + Views(taken, false)
    ensures forall i :: 0 <= i < |views| ==> (views[i].available <==> i < |free|)
    ensures forall i, j :: 0 <= i < j < |views| && views[j].available ==> views[i].available
  {
    forall i | 0 <= i < |views| ensures views[i].available <==> i < |free| {
      if i >= |free| {
        assert views[i] == Views(taken, false)[i - |free|];
      }
    }
  }

  /** Every view comes from one of the rooms, flagged by the part it is in. */
  lemma ConcatViewsSource(free: seq<Room>, taken: seq<Room>, views: seq<RoomView>)
    requires views == Views(free, true) + Views(taken, false)
    ensures forall v :: v in views ==>
              (v.available && exists room :: room in free && RoomToDict(room, true) == v)
              || (!v.available && exists room :: room in taken && RoomToDict(room, false) == v)
    ensures forall room :: room in free ==> RoomToDict(room, true) in views
    ensures forall room :: room in taken ==> RoomToDict(room, false) in views
  {
    forall v | v in views
      ensures (v.available && exists room :: room in free && RoomToDict(room, true) == v)
              || (!v.available && exists room :: room in taken && RoomToDict(room, false) == v)
    {
      var k :| 0 <= k < |views| && views[k] == v;
      if k < |free| {
        assert free[k] in free;
      } else {
        assert views[k] == Views(taken, false)[k - |free|];
        assert taken[k - |free|] in taken;
      }
    }
    forall room | room in free ensures RoomToDict(room, true) in views {
      var k :| 0 <= k < |free| && free[k] == room;
      assert views[k] == RoomToDict(room, true);
    }
    forall room | room in taken ensures RoomToDict(room, false) in views {
      var k :| 0 <= k < |taken| && taken[k] == room;
      assert views[|free| + k] == RoomToDict(room, false);
    }
  }

  /** What a room search promises: one entry per room seating enough people,
      available rooms first, and the flag agreeing with the single-room check. */
  lemma ListingProperties(db: Db, minCapacity: int, desiredStart: Instant, desiredEnd: Instant, views: seq<RoomView>)
    requires IsListing(db, minCapacity, desiredStart, desiredEnd, views)
    ensures |views| == |RoomRepository.GetRoomsCapacity(db.rooms, minCapacity)|
    ensures forall i, j :: 0 <= i < j < |views| && views[j].available ==> views[i].available
    ensures forall room :: room in db.rooms && room.capacity >= minCapacity ==>
              exists v :: v in views && v.roomNumber == room.roomNumber
    ensures forall v :: v in views ==>
              exists room :: room in db.rooms && room.capacity >= minCapacity && RoomToDict(room, v.available) == v
    ensures forall v :: v in views ==>
              (v.available <==> RoomRepository.RoomIsAvailable(db.bookings, v.roomNumber, desiredStart, desiredEnd))
  {
    var candidates := RoomRepository.GetRoomsCapacity(db.rooms, minCapacity);
    var conflicting := RoomRepository.GetConflictingRoomNumbers(db.bookings, desiredStart, desiredEnd);
    var free := Filter(candidates, NotIn(conflicting));
    var taken := Filter(candidates, In(conflicting));
    PartitionIsPermutation(candidates, NotIn(conflicting), In(conflicting));
    ConcatViewsOrder(free, taken, views);
    ConcatViewsSource(free, taken, views);
    forall room | room in db.rooms && room.capacity >= minCapacity
      ensures exists v :: v in views && v.roomNumber == room.roomNumber
    {
      if room.roomNumber !in conflicting {
        assert RoomToDict(room, true) in views;
      } else {
        assert RoomToDict(room, false) in views;
      }
    }
    forall v | v in views
      ensures v.available <==> RoomRepository.RoomIsAvailable(db.bookings, v.roomNumber, desiredStart, desiredEnd)
    {
      RoomRepository.ConflictingAgreesWithAvailable(db.bookings, v.roomNumber, desiredStart, desiredEnd);
    }
  }

  /** Every room, each flagged available whatever its bookings. */
  function GetAllRooms(db: Db): (r: Outcome<seq<RoomView>>)
    ensures r.Returned? && |r.value| == |db.rooms|
    ensures forall i :: 0 <= i < |db.rooms| ==>
              r.value[i].available && r.value[i].roomNumber == db.rooms[i].roomNumber
              && r.value[i].allowedRoles == AllowedRoleNames(db.rooms[i])
    ensures forall i :: 0 <= i < |db.rooms| ==> r.value[i] == RoomToDict(db.rooms[i], true)
  {
    HandleDbExceptions(Returned(Views(RoomRepository.GetAllRooms(db), true)))
  }

  /** The body of a room-creation call; absent fields are `None`. */
  datatype RoomCreate = RoomCreate(
    roomNumber: string,
    capacity: int,
    description: Option<string>,
    requestOnly: Option<bool>,
    roles: Option<seq<string>>)

  function NamedRoles(room: RoomCreate): seq<string> {
    if room.roles.Some? then room.roles.value else []
  }

  /** Stores a new room. A taken room number fails first (400), then the first
      role name that is not stored (404), then the commit of a room without a
      description (500); a failure writes nothing. An absent `request_only`
      is left to the column default, not request-only. */
  function CreateRoom(db: Db, room: RoomCreate): (r: Outcome<Written<Room>>)
    ensures HasRoom(db.rooms, room.roomNumber) ==> r == Fail(BadRequest, RoomExists)
    ensures r.Returned? <==>
      && !HasRoom(db.rooms, room.roomNumber) && (forall n :: n in NamedRoles(room) ==> Role(n) in db.roles)
      && room.description.Some?
    ensures !HasRoom(db.rooms, room.roomNumber) && !(forall n :: n in NamedRoles(room) ==> Role(n) in db.roles) ==>
      exists i :: 0 <= i < |NamedRoles(room)| && Role(NamedRoles(room)[i]) !in db.roles
                  && r == Fail(NotFound, RoleRepository.RoleNotFound(NamedRoles(room)[i]))
    ensures (!HasRoom(db.rooms, room.roomNumber) && (forall n :: n in NamedRoles(room) ==> Role(n) in db.roles)
             && room.description.None?) ==> r == Fail(InternalServerError, DatabaseErrorDetail)
    ensures r.Returned? ==>
      var stored := r.value.value;
      && stored.roomNumber == room.roomNumber && stored.capacity == room.capacity
      && stored.description == room.description && stored.requestOnly == (room.requestOnly == Some(true))
      && AllowedRoleNames(stored) == NamedRoles(room)
      && r.value.db == db.(rooms := db.rooms + [stored])
    ensures IsHttp(r)
  {
    HandleDbExceptions(
      if RoomRepository.GetRoom(db.rooms, room.roomNumber).Some? then Fail(BadRequest, RoomExists)
      else
        match RoleRepository.ResolveRoles(db.roles, NamedRoles(room))
        case Err(missing) => Fail(NotFound, RoleRepository.RoleNotFound(missing))
        case Ok(roleList) =>
          var newRoom := Room(room.roomNumber, room.capacity, room.description,
                              room.requestOnly == Some(true), roleList);
          var stored :- RoomRepository.CreateRoomInDb(db, newRoom);
          Returned(Written(newRoom, stored)))
  }

  datatype DeleteRoomReceipt = DeleteRoomReceipt(message: string, roomNumber: string)

  /** Deletes a room and, by cascade, its bookings; 404 for an unknown number. */
  function DeleteRoom(db: Db, roomNumber: string): (r: Outcome<Written<DeleteRoomReceipt>>)
    ensures r.Returned? <==> HasRoom(db.rooms, roomNumber)
    ensures r.Raised? ==> r == Fail(NotFound, RoomNotFound(roomNumber))
    ensures r.Returned? ==>
      && r.value.value == DeleteRoomReceipt("Room " + roomNumber + " deleted successfully", roomNumber)
      && (forall x :: x in r.value.db.rooms <==> x in db.rooms && x.roomNumber != roomNumber)
      && (forall b :: b in r.value.db.bookings <==> b in db.bookings && b.roomNumber != roomNumber)
      && r.value.db.users == db.users && r.value.db.roles == db.roles
  {
    HandleDbExceptions(
      match RoomRepository.GetRoom(db.rooms, roomNumber)
      case None => Fail(NotFound, RoomNotFound(roomNumber))
      case Some(room) =>
        Returned(Written(DeleteRoomReceipt("Room " + roomNumber + " deleted successfully", roomNumber),
                         RoomRepository.DeleteRoomInDb(db, room))))
  }

  lemma {:induction false} CreateRoomKeepsValid(db: Db, room: RoomCreate)
    requires Valid(db)
    ensures CreateRoom(db, room).Returned? ==> Valid(CreateRoom(db, room).value.db)
  {
    var r := CreateRoom(db, room);
    if r.Returned? {
      var stored := r.value.value;
      forall x | x in db.rooms ensures DistinctRoomNumbers(stored, x) && DistinctRoomNumbers(x, stored) {
      }
      AppendKeepsPairwise(db.rooms, stored, DistinctRoomNumbers);
      var d := r.value.db;
      forall b | b in d.bookings ensures HasRoom(d.rooms, b.roomNumber) {
        var x :| x in db.rooms && x.roomNumber == b.roomNumber;
        assert x in d.rooms;
      }
      forall x, role | x in d.rooms && role in x.allowedRoles ensures role in d.roles {
        if x == stored {
          var resolved := RoleRepository.ResolveRoles(db.roles, NamedRoles(room)).value;
          assert x.allowedRoles == resolved;
        } else {
          assert x in db.rooms;
        }
      }
    }
  }

  lemma DeleteRoomKeepsValid(db: Db, roomNumber: string)
    requires Valid(db)
    ensures DeleteRoom(db, roomNumber).Returned? ==> Valid(DeleteRoom(db, roomNumber).value.db)
  {
    DeleteRoomCascadeKeepsValid(db, roomNumber);
  }
}

=== FILE: scenarios.dfy ===
/** Concrete request sequences run through the route model. Instants are
    seconds after midnight of a day in the future of `Now`, so 36000 is
    10:00 and 43200 is 12:00. */
module Scenarios {
  import opened Outcomes
  import opened Seqs
  import opened Models
  import RoomRepository
  import BookingRepository
  import BookingService
  import BookingController
  import Dependencies

  const Now: Instant := 0

  const U := User(1, "U", "u", "hash-u", [])
  const V := User(2, "V", "v", "hash-v", [])
  const AdminUser := User(3, "Admin", "admin", "hash-a", [Role("admin")])

  const RoomA := Room("A101", 10, Some("Board room"), false, [])
  const DbA := Db([RoomA], [U, V], {}, [])

  /** An accepted booking of U in A101 from 10:00 to 12:00. */
  predicate FirstBooking(b: Booking) {
    b.userId == U.id && b.roomNumber == "A101" && b.startTime == 36000 && b.endTime == 43200 && b.accepted
  }

  /** Scenario A, first step: the direct booking is stored accepted. */
  lemma DirectFirstStep()
    ensures var r := BookingController.CreateBooking(DbA, "A101", 36000, 43200, U, Now);
      r.Returned? && FirstBooking(r.value.value) && r.value.db == DbA.(bookings := [r.value.value])
  {
    assert RoomA in DbA.rooms && U in DbA.users;
  }

  /** Scenario A, second step: an overlapping booking is refused, the
      back-to-back one is taken. */
  lemma DirectSecondStep(b: Booking)
    requires FirstBooking(b)
    ensures BookingController.CreateBooking(DbA.(bookings := [b]), "A101", 39600, 46800, V, Now)
              == Fail(BadRequest, BookingService.RoomIsUnavailable)
    ensures BookingController.CreateBooking(DbA.(bookings := [b]), "A101", 43200, 46800, V, Now).Returned?
  {
    var d := DbA.(bookings := [b]);
    assert RoomA in d.rooms && V in d.users;
    RoomRepository.OverlapMakesUnavailable(d.bookings, b, 39600, 46800);
    assert RoomRepository.RoomIsAvailable(d.bookings, "A101", 43200, 46800) by {
      forall x | x in d.bookings ensures !RoomRepository.Conflicting(x, 43200, 46800) {
        assert x == b;
      }
    }
  }

  /** Scenario A: a direct booking holds its slot against an overlapping one
      and leaves the back-to-back slot free. */
  lemma DirectBookingsDoNotOverlap()
    ensures var first := BookingController.CreateBooking(DbA, "A101", 36000, 43200, U, Now);
      && first.Returned? && first.value.value.accepted
      && BookingController.CreateBooking(first.value.db, "A101", 39600, 46800, V, Now)
           == Fail(BadRequest, BookingService.RoomIsUnavailable)
      && BookingController.CreateBooking(first.value.db, "A101", 43200, 46800, V, Now).Returned?
  {
    DirectFirstStep();
    DirectSecondStep(BookingController.CreateBooking(DbA, "A101", 36000, 43200, U, Now).value.value);
  }

  const RoomB := Room("B201", 6, Some("Lab"), true, [])
  const DbB := Db([RoomB], [U, V, AdminUser], {Role("admin")}, [])

  /** A pending request of U in B201, as the first request stores it. */
  predicate FirstRequest(b: Booking) {
    b.userId == U.id && b.roomNumber == "B201" && b.startTime == 36000 && b.endTime == 43200 && !b.accepted
  }

  /** A pending request of V in B201 overlapping the first one. */
  predicate SecondRequest(b: Booking) {
    b.userId == V.id && b.roomNumber == "B201" && b.startTime == 39600 && b.endTime == 46800 && !b.accepted
  }

  lemma AdminIsAdmin()
    ensures Dependencies.IsAdmin(AdminUser)
  {
    assert RoleNames(AdminUser)[0] == "admin";
  }

  /** Scenario B, first step: the direct booking is refused, the request stored. */
  lemma RequestOnlyFirstStep()
    ensures BookingController.CreateBooking(DbB, "B201", 36000, 43200, U, Now)
              == Fail(BadRequest, BookingService.RoomIsRequestOnly)
    ensures var r := BookingController.CreateBookingRequest(DbB, "B201", 36000, 43200, U, Now);
      r.Returned? && FirstRequest(r.value.value) && r.value.db == DbB.(bookings := [r.value.value])
  {
    assert RoomB in DbB.rooms && U in DbB.users;
  }

  /** Scenario B, second step: pending requests do not block each other. */
  lemma RequestOnlySecondStep(b1: Booking)
    requires FirstRequest(b1)
    ensures var r := BookingController.CreateBookingRequest(DbB.(bookings := [b1]), "B201", 39600, 46800, V, Now);
      && r.Returned? && SecondRequest(r.value.value) && r.value.value.id != b1.id
      && r.value.db == DbB.(bookings := [b1, r.value.value])
  {
    var d1 := DbB.(bookings := [b1]);
    assert RoomB in d1.rooms && V in d1.users;
    assert RoomRepository.RoomIsAvailable(d1.bookings, "B201", 39600, 46800);
  }

  /** Scenario B, third step: the admin approves the first request. */
  lemma RequestOnlyApproval(b1: Booking, b2: Booking)
    requires FirstRequest(b1) && SecondRequest(b2) && b1.id != b2.id
    ensures var r := BookingController.ApproveBookingRequest(DbB.(bookings := [b1, b2]), b1.id, AdminUser, Now);
      r.Returned? && r.value.db == DbB.(bookings := [b1.(accepted := true, datetimeMade := Now), b2])
  {
    var d2 := DbB.(bookings := [b1, b2]);
    AdminIsAdmin();
    TwoRowLookup(d2.bookings, b1);
    assert RoomRepository.RoomIsAvailable(d2.bookings, "B201", 36000, 43200);
    TwoRowReplace(d2.bookings, b1.(accepted := true, datetimeMade := Now));
  }

  /** Scenario B, last step: the overlapping request can no longer be approved. */
  lemma RequestOnlyConflict(a1: Booking, b2: Booking)
    requires a1.roomNumber == "B201" && a1.startTime == 36000 && a1.endTime == 43200 && a1.accepted
    requires SecondRequest(b2) && a1.id != b2.id
    ensures BookingController.ApproveBookingRequest(DbB.(bookings := [a1, b2]), b2.id, AdminUser, Now)
              == Fail(BadRequest, BookingService.AcceptConflict)
  {
    var d3 := DbB.(bookings := [a1, b2]);
    AdminIsAdmin();
    TwoRowLookup(d3.bookings, b2);
    RoomRepository.OverlapMakesUnavailable(d3.bookings, a1, 39600, 46800);
  }

  /** Scenario B: a request-only room takes requests but not direct bookings;
      once one request is approved, an overlapping one cannot be. */
  lemma RequestOnlyRoomFlow()
    ensures BookingController.CreateBooking(DbB, "B201", 36000, 43200, U, Now)
              == Fail(BadRequest, BookingService.RoomIsRequestOnly)
    ensures var req1 := BookingController.CreateBookingRequest(DbB, "B201", 36000, 43200, U, Now);
      && req1.Returned? && !req1.value.value.accepted
      && var req2 := BookingController.CreateBookingRequest(req1.value.db, "B201", 39600, 46800, V, Now);
         && req2.Returned? && !req2.value.value.accepted
         && var approved := BookingController.ApproveBookingRequest(req2.value.db, req1.value.value.id, AdminUser, Now);
            && approved.Returned?
            && BookingController.ApproveBookingRequest(approved.value.db, req2.value.value.id, AdminUser, Now)
                 == Fail(BadRequest, BookingService.AcceptConflict)
  {
    RequestOnlyFirstStep();
    var b1 := BookingController.CreateBookingRequest(DbB, "B201", 36000, 43200, U, Now).value.value;
    RequestOnlySecondStep(b1);
    var b2 := BookingController.CreateBookingRequest(DbB.(bookings := [b1]), "B201", 39600, 46800, V, Now).value.value;
    RequestOnlyApproval(b1, b2);
    RequestOnlyConflict(b1.(accepted := true, datetimeMade := Now), b2);
  }

  const Employee := User(4, "E", "e", "hash-e", [Role("employee")])
  const Manager := User(5, "M", "m", "hash-m", [Role("manager")])

  /** Scenario C: a room restricted to managers refuses an employee and
      takes a manager. */
  lemma RestrictedRoom()
    ensures var db := Db([Room("C301", 8, Some("Managers' room"), false, [Role("manager")])], [Employee, Manager],
                         {Role("employee"), Role("manager")}, []);
      && BookingController.CreateBooking(db, "C301", 36000, 43200, Employee, Now)
           == Fail(Forbidden, BookingService.InsufficientPermissions)
      && BookingController.CreateBooking(db, "C301", 36000, 43200, Manager, Now).Returned?
  {
    var room := Room("C301", 8, Some("Managers' room"), false, [Role("manager")]);
    var db := Db([room], [Employee, Manager], {Role("employee"), Role("manager")}, []);
    assert room in db.rooms && Manager in db.users;
    assert AllowedRoleNames(room) == ["manager"];
    assert RoleNames(Employee) == ["employee"];
    assert RoleNames(Manager) == ["manager"];
    assert BookingService.MayBookRoom(room, Manager) by {
      assert "manager" in AllowedRoleNames(room) && "manager" in RoleNames(Manager);
    }
  }

  const B1 := Booking(1, 1, "A101", 36000, 43200, true, Now)
  const B2 := Booking(2, 2, "A101", 43200, 50400, true, Now)
  const DbD := Db([Room("A101", 10, Some("Board room"), false, [])], [U, V], {}, [B1, B2])

  lemma OwnerFindsB1()
    ensures BookingRepository.GetYourBooking(DbD.bookings, U.id, 1) == Some(B1)
  {
    TwoRowOwnerLookup(DbD.bookings, B1);
  }

  /** Scenario D: moving a booking onto another accepted booking of the room
      is refused, so the database keeps the original times. */
  lemma MoveOntoAnotherBooking()
    ensures BookingController.UpdateABooking(DbD, 1, 39600, 46800, U, Now)
              == Fail(BadRequest, BookingService.UpdateConflict)
  {
    OwnerFindsB1();
    assert B2 in DbD.bookings && RoomRepository.Conflicting(B2, 39600, 46800);
  }

  /** Moving a booking within its own slot is not refused: it does not
      conflict with itself. */
  lemma MoveWithinOwnSlot()
    ensures var r := BookingController.UpdateABooking(DbD, 1, 36000, 39600, U, Now);
      r.Returned? && r.value.value == B1.(endTime := 39600)
  {
    OwnerFindsB1();
    assert RoomRepository.RoomIsAvailableExcluding(DbD.bookings, "A101", 36000, 39600, 1) by {
      forall x | x in DbD.bookings && x.roomNumber == "A101" && x.id != 1
        ensures !RoomRepository.Conflicting(x, 36000, 39600)
      {
        assert x == B2;
      }
    }
  }

  /** The id lookup on a two-row table with distinct ids. */
  lemma TwoRowLookup(bookings: seq<Booking>, b: Booking)
    requires |bookings| == 2 && bookings[0].id != bookings[1].id && b in bookings
    ensures BookingRepository.GetAnyBooking(bookings, b.id) == Some(b)
  {
    assert Pairwise(bookings, DistinctBookingIds);
    BookingRepository.LookupsFindTheRow(bookings, b, 0);
  }

  lemma TwoRowOwnerLookup(bookings: seq<Booking>, b: Booking)
    requires |bookings| == 2 && bookings[0].id != bookings[1].id && b in bookings
    ensures BookingRepository.GetYourBooking(bookings, b.userId, b.id) == Some(b)
  {
    assert Pairwise(bookings, DistinctBookingIds);
    BookingRepository.LookupsFindTheRow(bookings, b, b.userId);
  }

  lemma TwoRowReplace(bookings: seq<Booking>, updated: Booking)
    requires |bookings| == 2 && bookings[0].id != bookings[1].id && updated.id == bookings[0].id
    ensures BookingRepository.ReplaceRow(bookings, updated) == [updated, bookings[1]]
  {
  }
}

=== FILE: seqs.dfy ===
/** Sequence operations the table queries are built from: `filter(...)`
    keeps rows in table order, `.first()` takes the earliest match,
    `order_by(...)` sorts by an integer key. */
module Seqs {
  import opened Outcomes

  /** The elements of `s` satisfying `p`, in their original order. */
  function Filter<T(!new)>(s: seq<T>, p: T -> bool): (r: seq<T>)
    ensures |r| <= |s|
    ensures forall x :: x in r <==> x in s && p(x)
    ensures forall x :: multiset(r)[x] == if p(x) then multiset(s)[x] else 0
  {
    if |s| == 0 then []
    else
      assert s == [s[0]] + s[1..];
      if p(s[0]) then [s[0]] + Filter(s[1..], p) else Filter(s[1..], p)
  }

  lemma {:induction false} FilterAppend<T(!new)>(s: seq<T>, t: seq<T>, p: T -> bool)
    ensures Filter(s + t, p) == Filter(s, p) + Filter(t, p)
    decreases |s|
  {
    if |s| > 0 {
      assert (s + t)[1..] == s[1..] + t;
      FilterAppend(s[1..], t, p);
    } else {
      assert s + t == t;
    }
  }

  /** Filtering by a predicate every element satisfies changes nothing. */
  lemma {:induction false} FilterKeepsAll<T(!new)>(s: seq<T>, p: T -> bool)
    requires forall x :: x in s ==> p(x)
    ensures Filter(s, p) == s
    decreases |s|
  {
    if |s| > 0 {
      assert s[0] in s;
      assert forall x :: x in s[1..] ==> x in s;
      FilterKeepsAll(s[1..], p);
      assert s == [s[0]] + s[1..];
    }
  }

  /** A prefix one element longer. */
  lemma TakeOneMore<T>(s: seq<T>, i: nat)
    requires i < |s|
    ensures s[..i + 1] == s[..i] + [s[i]]
  {
  }

  /** Filtering a sequence grown by one element. */
  lemma FilterSnoc<T(!new)>(s: seq<T>, x: T, p: T -> bool)
    ensures Filter(s + [x], p) == if p(x) then Filter(s, p) + [x] else Filter(s, p)
  {
    FilterAppend(s, [x], p);
    assert [x][1..] == [];
  }

  /** Splitting a sequence by a predicate and its negation loses and adds nothing. */
  lemma PartitionIsPermutation<T(!new)>(s: seq<T>, p: T -> bool, q: T -> bool)
    requires forall x :: q(x) == !p(x)
    ensures multiset(Filter(s, p) + Filter(s, q)) == multiset(s)
    ensures |Filter(s, p)| + |Filter(s, q)| == |s|
  {
    var m := multiset(Filter(s, p) + Filter(s, q));
    assert forall x :: m[x] == multiset(s)[x];
    assert m == multiset(s);
  }

  /** The earliest element of `s` satisfying `p`. */
  function FirstWhere<T(!new)>(s: seq<T>, p: T -> bool): (r: Option<T>)
    ensures r.Some? ==> r.value in s && p(r.value)
    ensures r.None? <==> forall x :: x in s ==> !p(x)
    ensures r.Some? ==> exists i :: 0 <= i < |s| && s[i] == r.value && forall j :: 0 <= j < i ==> !p(s[j])
  {
    if |s| == 0 then None
    else if p(s[0]) then Some(s[0])
    else
      var r := FirstWhere(s[1..], p);
      assert r.Some? ==> exists i :: 0 <= i < |s| && s[i] == r.value && forall j :: 0 <= j < i ==> !p(s[j]) by {
        if r.Some? {
          var i :| 0 <= i < |s[1..]| && s[1..][i] == r.value && forall j :: 0 <= j < i ==> !p(s[1..][j]);
          assert s[i + 1] == r.value;
          assert forall j :: 0 <= j < i + 1 ==> !p(s[j]) by {
            forall j | 0 <= j < i + 1 ensures !p(s[j]) {
              if j > 0 {
                assert s[j] == s[1..][j - 1];
              }
            }
          }
        }
      }
      r
  }

  /** No two elements at different positions are related badly: `ok` holds
      of every ordered pair of distinct positions. */
  predicate Pairwise<T>(s: seq<T>, ok: (T, T) -> bool) {
    forall i, j :: 0 <= i < |s| && 0 <= j < |s| && i != j ==> ok(s[i], s[j])
  }

  lemma {:induction false} FilterKeepsPairwise<T(!new)>(s: seq<T>, p: T -> bool, ok: (T, T) -> bool)
    requires Pairwise(s, ok)
    ensures Pairwise(Filter(s, p), ok)
    decreases |s|
  {
    if |s| > 0 {
      var tail := s[1..];
      assert Pairwise(tail, ok) by {
        forall i, j | 0 <= i < |tail| && 0 <= j < |tail| && i != j ensures ok(tail[i], tail[j]) {
          assert tail[i] == s[i + 1] && tail[j] == s[j + 1];
        }
      }
      FilterKeepsPairwise(tail, p, ok);
      if p(s[0]) {
        var rest := Filter(tail, p);
        var r := [s[0]] + rest;
        assert forall y :: y in rest ==> ok(s[0], y) && ok(y, s[0]) by {
          forall y | y in rest ensures ok(s[0], y) && ok(y, s[0]) {
            assert y in tail;
            var k :| 0 <= k < |tail| && tail[k] == y;
            assert s[k + 1] == y;
          }
        }
        forall i, j | 0 <= i < |r| && 0 <= j < |r| && i != j ensures ok(r[i], r[j]) {
          if i == 0 {
            assert r[j] == rest[j - 1];
          } else if j == 0 {
            assert r[i] == rest[i - 1];
          } else {
            assert r[i] == rest[i - 1] && r[j] == rest[j - 1];
          }
        }
      }
    }
  }

  lemma AppendKeepsPairwise<T(!new)>(s: seq<T>, x: T, ok: (T, T) -> bool)
    requires Pairwise(s, ok)
    requires forall y :: y in s ==> ok(x, y) && ok(y, x)
    ensures Pairwise(s + [x], ok)
  {
    var r := s + [x];
    forall i, j | 0 <= i < |r| && 0 <= j < |r| && i != j ensures ok(r[i], r[j]) {
      if i < |s| && j < |s| {
        assert r[i] == s[i] && r[j] == s[j];
      } else if i < |s| {
        assert r[i] == s[i] && s[i] in s;
      } else {
        assert r[j] == s[j] && s[j] in s;
      }
    }
  }

  lemma ReplaceKeepsPairwise<T(!new)>(s: seq<T>, k: nat, x: T, ok: (T, T) -> bool)
    requires Pairwise(s, ok)
    requires k < |s|
    requires forall i :: 0 <= i < |s| && i != k ==> ok(x, s[i]) && ok(s[i], x)
    ensures Pairwise(s[k := x], ok)
  {
  }

  /** Every element's key is at most its successors'. */
  predicate SortedBy<T>(s: seq<T>, key: T -> int) {
    forall i, j :: 0 <= i < j < |s| ==> key(s[i]) <= key(s[j])
  }

  /** The head of a sorted sequence has the least key. */
  lemma HeadIsLeast<T>(s: seq<T>, key: T -> int)
    requires SortedBy(s, key) && |s| > 0
    ensures forall y :: y in s ==> key(s[0]) <= key(y)
  {
    forall y | y in s ensures key(s[0]) <= key(y) {
      var k :| 0 <= k < |s| && s[k] == y;
    }
  }

  /** An element no greater than anything in a sorted sequence may go first. */
  lemma PrependSorted<T>(a: T, s: seq<T>, key: T -> int)
    requires SortedBy(s, key)
    requires forall y :: y in s ==> key(a) <= key(y)
    ensures SortedBy([a] + s, key)
  {
    var r := [a] + s;
    forall i, j | 0 <= i < j < |r| ensures key(r[i]) <= key(r[j]) {
      assert r[j] == s[j - 1];
      if i > 0 {
        assert r[i] == s[i - 1];
      } else {
        assert s[j - 1] in s;
      }
    }
  }

  /** The head of a sorted sequence may precede the insertion of a larger
      element into its tail. */
  lemma HeadBeforeInsertion<T>(x: T, s: seq<T>, rest: seq<T>, key: T -> int)
    requires SortedBy(s, key) && |s| > 0 && key(s[0]) < key(x)
    requires SortedBy(rest, key) && multiset(rest) == multiset(s[1..]) + multiset{x}
    ensures SortedBy([s[0]] + rest, key)
  {
    HeadIsLeast(s, key);
    forall y | y in rest ensures key(s[0]) <= key(y) {
      assert y in multiset(rest);
      if y != x {
        assert y in multiset(s[1..]);
        assert y in s;
      }
    }
    PrependSorted(s[0], rest, key);
  }

  function InsertBy<T(!new)>(x: T, s: seq<T>, key: T -> int): (r: seq<T>)
    requires SortedBy(s, key)
    ensures SortedBy(r, key)
    ensures multiset(r) == multiset(s) + multiset{x}
  {
    if |s| == 0 then [x]
    else if key(x) <= key(s[0]) then
      HeadIsLeast(s, key);
      PrependSorted(x, s, key);
      [x] + s
    else
      assert s == [s[0]] + s[1..];
      var rest := InsertBy(x, s[1..], key);
      HeadBeforeInsertion(x, s, rest, key);
      [s[0]] + rest
  }

  /** Insertion sort by `key`: the same elements, in ascending key order. */
  function SortBy<T(!new)>(s: seq<T>, key: T -> int): (r: seq<T>)
    ensures SortedBy(r, key)
    ensures multiset(r) == multiset(s)
  {
    if |s| == 0 then []
    else
      assert s == [s[0]] + s[1..];
      InsertBy(s[0], SortBy(s[1..], key), key)
  }
}

=== FILE: text.dfy ===
/** Decimal rendering of integers, as Python's f-strings do when a message
    embeds a booking id. */
module Text {

  predicate IsDigit(c: char) {
    '0' <= c <= '9'
  }

  function Digit(d: nat): (c: char)
    requires d < 10
    ensures IsDigit(c)
  {
    ('0' as int + d) as char
  }

  /** `str(n)` for a non-negative integer: no sign, no leading zeros. */
  function NatToString(n: nat): (s: string)
    ensures |s| > 0
    ensures forall i :: 0 <= i < |s| ==> IsDigit(s[i])
    ensures |s| > 1 ==> s[0] != '0'
    decreases n
  {
    if n < 10 then [Digit(n)] else NatToString(n / 10) + [Digit(n % 10)]
  }

  /** `str(i)` for any integer. */
  function IntToString(i: int): (s: string)
    ensures |s| > 0
    ensures (s[0] == '-') <==> i < 0
  {
    if i < 0 then "-" + NatToString(-i) else NatToString(i)
  }

  /** Reads back a string of decimal digits. */
  function ParseNat(s: string): nat
    requires forall i :: 0 <= i < |s| ==> IsDigit(s[i])
  {
    if |s| == 0 then 0
    else
      assert IsDigit(s[|s| - 1]);
      10 * ParseNat(s[..|s| - 1]) + (s[|s| - 1] as int - '0' as int)
  }

  function ParseInt(s: string): int
    requires |s| > 0
    requires forall i :: 1 <= i < |s| ==> IsDigit(s[i])
    requires s[0] != '-' ==> IsDigit(s[0])
  {
    if s[0] == '-' then -(ParseNat(s[1..]) as int) else ParseNat(s)
  }

  /** The rendering loses nothing: a message names exactly one id. */
  lemma {:induction false} NatToStringRoundTrip(n: nat)
    ensures ParseNat(NatToString(n)) == n
    decreases n
  {
    if n >= 10 {
      var s := NatToString(n);
      NatToStringRoundTrip(n / 10);
      assert s[..|s| - 1] == NatToString(n / 10);
    }
  }

  lemma IntToStringRoundTrip(i: int)
    ensures ParseInt(IntToString(i)) == i
  {
    if i < 0 {
      NatToStringRoundTrip(-i);
      assert IntToString(i)[1..] == NatToString(-i);
    } else {
      NatToStringRoundTrip(i);
    }
  }

  lemma IntToStringInjective(i: int, j: int)
    requires IntToString(i) == IntToString(j)
    ensures i == j
  {
    IntToStringRoundTrip(i);
    IntToStringRoundTrip(j);
  }
}

=== FILE: times.dfy ===
/** The request schema `Times` (app/schemas/times.py) and the schemas that
    inherit from it, `BookingCreate` and `GetRooms`. */
module Times {
  import opened Outcomes
  import opened Models

  /** The minute field of an instant, 0..59. */
  function MinuteOfHour(t: Instant): (m: int)
    ensures 0 <= m < 60
  {
    (t / 60) % 60
  }

  /** The quantization rule: the minute field is a multiple of 15. */
  predicate OnQuarterHour(t: Instant) {
    MinuteOfHour(t) % 15 == 0
  }

  /** The three ways a pair of times is rejected, in the order they are checked. */
  datatype TimesError = NotOnQuarterHour | StartNotInFuture | StartNotBeforeEnd

  function Message(e: TimesError): string {
    match e
    case NotOnQuarterHour => "Time must be in 15-minute intervals"
    case StartNotInFuture => "Start time must be in the future"
    case StartNotBeforeEnd => "Start time must be before end time"
  }

  /** The field validator run on each endpoint. */
  function ValidateQuarterHour(v: Instant): (r: Result<Instant, TimesError>)
    ensures r.Ok? <==> MinuteOfHour(v) in {0, 15, 30, 45}
    ensures r.Ok? ==> r.value == v
    ensures r.Err? ==> r.error == NotOnQuarterHour
  {
    if MinuteOfHour(v) % 15 != 0 then Err(NotOnQuarterHour) else Ok(v)
  }

  /** A validated pair of times. */
  datatype TimeRange = TimeRange(startDatetime: Instant, endDatetime: Instant)

  /** Validation of `Times`: both field validators, then the model validator
      with its future-start and ordering checks; the first failure wins. */
  function ValidateTimes(start: Instant, end: Instant, now: Instant): (r: Result<TimeRange, TimesError>)
    ensures r.Ok? <==> OnQuarterHour(start) && OnQuarterHour(end) && now < start < end
    ensures r.Ok? ==> r.value == TimeRange(start, end)
    ensures !OnQuarterHour(start) || !OnQuarterHour(end) ==> r == Err(NotOnQuarterHour)
    ensures OnQuarterHour(start) && OnQuarterHour(end) && start <= now ==> r == Err(StartNotInFuture)
    ensures OnQuarterHour(start) && OnQuarterHour(end) && now < start && end <= start ==> r == Err(StartNotBeforeEnd)
  {
    match (ValidateQuarterHour(start), ValidateQuarterHour(end))
    case (Ok(s), Ok(e)) =>
      if s <= now then Err(StartNotInFuture)
      else if s >= e then Err(StartNotBeforeEnd)
      else Ok(TimeRange(s, e))
    case _ => Err(NotOnQuarterHour)
  }

  /** The body of a booking or booking-request call. */
  datatype BookingCreate = BookingCreate(roomNumber: string, startDatetime: Instant, endDatetime: Instant)

  /** A booking body is valid iff its times are, with the same error. */
  function ValidateBookingCreate(roomNumber: string, start: Instant, end: Instant, now: Instant)
    : (r: Result<BookingCreate, TimesError>)
    ensures r.Ok? <==> ValidateTimes(start, end, now).Ok?
    ensures r.Ok? ==> r.value == BookingCreate(roomNumber, start, end)
    ensures r.Err? ==> r.error == ValidateTimes(start, end, now).error
  {
    match ValidateTimes(start, end, now)
    case Ok(t) => Ok(BookingCreate(roomNumber, t.startDatetime, t.endDatetime))
    case Err(e) => Err(e)
  }

  /** The query of a room search; `minCapacity` defaults to 0 at the HTTP layer. */
  datatype GetRooms = GetRooms(minCapacity: int, startDatetime: Instant, endDatetime: Instant)

  /** A room search is valid iff its window is, with the same error. */
  function ValidateGetRooms(minCapacity: int, start: Instant, end: Instant, now: Instant)
    : (r: Result<GetRooms, TimesError>)
    ensures r.Ok? <==> ValidateTimes(start, end, now).Ok?
    ensures r.Ok? ==> r.value == GetRooms(minCapacity, start, end)
    ensures r.Err? ==> r.error == ValidateTimes(start, end, now).error
  {
    match ValidateTimes(start, end, now)
    case Ok(t) => Ok(GetRooms(minCapacity, t.startDatetime, t.endDatetime))
    case Err(e) => Err(e)
  }

  /** Quantization looks at the minute field only: the seconds within a minute
      are not constrained. */
  lemma QuarterHourIgnoresSeconds(t: Instant, seconds: int)
    requires 0 <= seconds < 60
    ensures OnQuarterHour(t) <==> OnQuarterHour(60 * (t / 60) + seconds)
  {
    var m := t / 60;
    assert (60 * m + seconds) / 60 == m;
  }
}

=== FILE: user_service.dfy ===
/** Login and role assignment (app/services/user_service.py), over the user
    lookup of app/repositories/user_repository.py. Password hashing is a
    foreign library: verification is the parameter `verifyPassword`. */
module UserService {
  import opened Outcomes
  import opened Seqs
  import opened Models
  import RoleRepository

  const UserNotFound := "User not found"

  function Named(username: string): User -> bool {
    (u: User) => u.username == username
  }

  /** The first user with this username, if any. */
  function GetUserByUsername(users: seq<User>, username: string): (r: Option<User>)
    ensures r.Some? ==> r.value in users && r.value.username == username
    ensures r.None? <==> forall u :: u in users ==> u.username != username
  {
    FirstWhere(users, Named(username))
  }

  /** With unique usernames the lookup finds the one user carrying the name. */
  lemma GetUserFindsTheUser(users: seq<User>, user: User)
    requires Pairwise(users, DistinctUsernames)
    requires user in users
    ensures GetUserByUsername(users, user.username) == Some(user)
  {
    var found := GetUserByUsername(users, user.username);
    var i :| 0 <= i < |users| && users[i] == found.value;
    var j :| 0 <= j < |users| && users[j] == user;
    assert !DistinctUsernames(users[i], users[j]);
  }

  /** The stored user when the name is known and the password verifies
      against the stored hash; nothing otherwise. Never raises. */
  function AuthenticateUser(db: Db, username: string, password: string, verifyPassword: (string, string) -> bool)
    : (r: Outcome<Option<User>>)
    ensures r.Returned?
    ensures (forall u :: u in db.users ==> u.username != username) ==> r.value == None
    ensures r.value.Some? ==>
      && r.value.value in db.users && r.value.value.username == username
      && verifyPassword(password, r.value.value.hashedPassword)
  {
    HandleDbExceptions(
      match GetUserByUsername(db.users, username)
      case None => Returned(None)
      case Some(user) =>
        if !verifyPassword(password, user.hashedPassword) then Returned(None)
        else Returned(Some(user)))
  }

  /** For a stored user, login succeeds exactly when the password verifies. */
  lemma AuthenticateStoredUser(db: Db, user: User, password: string, verifyPassword: (string, string) -> bool)
    requires Pairwise(db.users, DistinctUsernames)
    requires user in db.users
    ensures AuthenticateUser(db, user.username, password, verifyPassword)
              == Returned(if verifyPassword(password, user.hashedPassword) then Some(user) else None)
  {
    GetUserFindsTheUser(db.users, user);
  }

  /** Replaces the role list of the user with this username by the named
      roles, in the order named. An unknown user fails first, then the first
      unknown role name; a failure writes nothing. */
  function PutRoles(db: Db, username: string, roles: seq<string>): (r: Outcome<Written<User>>)
    ensures (forall u :: u in db.users ==> u.username != username) ==> r == Fail(NotFound, UserNotFound)
    ensures r.Returned? <==>
      (exists u :: u in db.users && u.username == username) && (forall n :: n in roles ==> Role(n) in db.roles)
    ensures (exists u :: u in db.users && u.username == username) && r.Raised? ==>
      exists i :: 0 <= i < |roles| && Role(roles[i]) !in db.roles && r == Fail(NotFound, RoleRepository.RoleNotFound(roles[i]))
                  && forall j :: 0 <= j < i ==> Role(roles[j]) in db.roles
    ensures r.Returned? ==>
      && GetUserByUsername(db.users, username).Some?
      && r.value.value == GetUserByUsername(db.users, username).value.(roles := r.value.value.roles)
      && (forall role :: role in r.value.value.roles ==> role in db.roles)
    ensures r.Returned? ==>
      && r.value.value.username == username && RoleNames(r.value.value) == roles
      && r.value.db.rooms == db.rooms && r.value.db.bookings == db.bookings && r.value.db.roles == db.roles
    ensures IsHttp(r)
  {
    HandleDbExceptions(
      match GetUserByUsername(db.users, username)
      case None => Fail(NotFound, UserNotFound)
      case Some(user) =>
        match RoleRepository.ResolveRoles(db.roles, roles)
        case Err(missing) => Fail(NotFound, RoleRepository.RoleNotFound(missing))
        case Ok(roleList) => Returned(RoleRepository.UpdateRoles(db, user, roleList)))
  }

  /** Role assignment rewrites one stored user and touches no other row. */
  lemma PutRolesChangesOneUser(db: Db, username: string, roles: seq<string>)
    requires Valid(db)
    ensures var r := PutRoles(db, username, roles);
      r.Returned? ==>
        && |r.value.db.users| == |db.users|
        && forall i :: 0 <= i < |db.users| ==>
             r.value.db.users[i] == if db.users[i].username == username then r.value.value else db.users[i]
  {
    var r := PutRoles(db, username, roles);
    if r.Returned? {
      var user := GetUserByUsername(db.users, username).value;
      var k :| 0 <= k < |db.users| && db.users[k] == user;
      forall i | 0 <= i < |db.users|
        ensures db.users[i].id == user.id <==> db.users[i].username == username
      {
        if i != k {
          assert DistinctUserIds(db.users[i], db.users[k]) && DistinctUsernames(db.users[i], db.users[k]);
        }
      }
    }
  }

  /** Rewriting user rows in place, keeping every id and username and naming
      only stored roles, keeps every invariant. */
  lemma RewriteUsersKeepsValid(db: Db, d: Db)
    requires Valid(db)
    requires d.rooms == db.rooms && d.bookings == db.bookings && d.roles == db.roles
    requires |d.users| == |db.users|
    requires forall i :: 0 <= i < |db.users| ==>
      && d.users[i].id == db.users[i].id && d.users[i].username == db.users[i].username
      && (forall x :: x in d.users[i].roles ==> x in db.roles)
    ensures Valid(d)
  {
    assert Pairwise(d.users, DistinctUserIds) by {
      forall i, j | 0 <= i < |d.users| && 0 <= j < |d.users| && i != j ensures DistinctUserIds(d.users[i], d.users[j]) {
        assert DistinctUserIds(db.users[i], db.users[j]);
      }
    }
    assert Pairwise(d.users, DistinctUsernames) by {
      forall i, j | 0 <= i < |d.users| && 0 <= j < |d.users| && i != j ensures DistinctUsernames(d.users[i], d.users[j]) {
        assert DistinctUsernames(db.users[i], db.users[j]);
      }
    }
    forall b | b in d.bookings ensures HasUser(d.users, b.userId) {
      var u :| u in db.users && u.id == b.userId;
      var i :| 0 <= i < |db.users| && db.users[i] == u;
      assert d.users[i] in d.users;
    }
    forall u, x | u in d.users && x in u.roles ensures x in d.roles {
      var i :| 0 <= i < |d.users| && d.users[i] == u;
    }
  }

  lemma {:induction false} PutRolesKeepsValid(db: Db, username: string, roles: seq<string>)
    requires Valid(db)
    ensures PutRoles(db, username, roles).Returned? ==> Valid(PutRoles(db, username, roles).value.db)
  {
    var r := PutRoles(db, username, roles);
    if r.Returned? {
      PutRolesChangesOneUser(db, username, roles);
      var user := GetUserByUsername(db.users, username).value;
      assert r.value.value == user.(roles := r.value.value.roles);
      RewriteUsersKeepsValid(db, r.value.db);
    }
  }
}
